=== FILE: README.md ===
# ComfyUI serverless worker — a Dafny model

This project models the decision logic of a RunPod serverless worker that runs
ComfyUI workflows. A job carries a workflow graph (opaque JSON) and optional input
images. The worker handles it in six steps:

1. It validates the input.
2. It waits for the local ComfyUI engine to answer.
3. It uploads the input images.
4. It queues the workflow. The engine's HTTP 400 answers become readable messages.
   They list the available checkpoints only for a failed-validation error, or when a
   node detail names a refused `ckpt_name`.
5. It watches the engine's websocket until the prompt finishes or fails, reconnecting
   when the channel drops.
6. It walks the prompt's history manifest and returns the first generated image as
   base64.

The earlier version of the worker (`handler-old.py`) is modelled beside the current one
(`handler-simple.py`), with lemmas showing where the two disagree.

Every effect is an oracle parameter:

- how text input parses;
- the readiness probes;
- the base64 decoder and the upload POSTs;
- the first websocket connection;
- the `/prompt` reply and the `/object_info` document;
- the websocket frames, where a closed frame carries its own reconnect attempts;
- the `/history` reply;
- the `/view` endpoint, which returns the base64 text of the fetched bytes.

Retry oracles are functions from the attempt number, so no "long enough" precondition
is needed. Everything else is a pure function over these values.

Modules, one per component:

| Module | Covers |
|---|---|
| `Wrappers`, `Dict`, `PyText`, `Json` | Option/Result, Python dictionaries as ordered association lists, the string operations used, and JSON values with Python truthiness, `dict.get`, `in` and `str()` |
| `Validation` | `validate_input` |
| `Reconnect` | `_attempt_websocket_reconnect` |
| `Monitor` | the watch loop |
| `Upload` | `upload_images` |
| `Submit` | `queue_workflow` and `get_available_models` |
| `Collect` | the history walk and the response |
| `Handler` | `check_server` and `handler` |
| `Legacy` | the earlier worker's validator, upload, history poll and image selection |

Three behaviours of the code shape the model:

- Errors recorded during a job are dropped when an image was produced. The success
  response carries only the image.
- Output keys other than `images` are only logged. They never reach the response or the
  error list.
- `validate_input` runs outside the handler's `try`. A job input that is any value
  other than `None`, text or an object, or text that parses to a non-object (including
  `null`), makes `.get` raise AttributeError, and that escapes the handler (`Handler.Outcome.Raises`). It is not returned as an error.

## Model

| member | source | states |
|---|---|---|
| Validation.Validate | handler-simple.py:77-89 | `None` input gives "Please provide input". Unparsable text gives "Invalid JSON format in input". An object, or text that parses to one, goes to the object checks. Any other value, given or parsed (including parsed `null`), is a non-mapping named by its Python type, whose `.get` raises; and a non-mapping error arises only then. |
| Validation.ValidateObject | handler-simple.py:91-113 | Only a missing or null workflow is rejected, and that check comes first. A truthy non-list `images` is "'images' must be a list". Success holds exactly when every entry is a dict with `name` and `image`. The workflow is passed through unchanged. A lone truthy `image` becomes `[image]`, and neither present gives no list. A returned list is non-empty. |
| Validation.Normalise | handler-simple.py:96-104 | The legacy `image` is folded in only when `images` is falsy. Both falsy gives `None`. A truthy `images` is kept as is. |
| Validation.FirstMalformed | handler-simple.py:106-111 | No malformed entry is found exactly when all entries are well shaped. A reported index points at a malformed entry. |
| Validation.CheckImages | handler-simple.py:105-111 | No list to check is a success with none. A value that is not a list is "'images' must be a list". A list with any malformed entry is the malformed-image error. Otherwise the list is kept as given. |
| Validation.ValidateIdempotent | handler-simple.py:91-113 | Re-validating the worker's own `{workflow, images}` output gives back the same job. |
| Validation.EmptyWorkflowAccepted | handler-simple.py:91-93 | An empty workflow object is accepted, with no images. |
| Reconnect.RunFrom | handler-simple.py:53-72 | From attempt k of n: at most n-k dials, and one probe per dial plus the probe that found the engine down. Sleeps come only between a failed dial and the next probe. The first attempt that does not fail to dial decides the outcome. Giving up means every dial failed and carries the last dial error. |
| Reconnect.Reconnect | handler-simple.py:47-75 | At most max(0, max_attempts) dials. A new channel is the first successful dial after failed ones. The engine found down stops the run at that probe. Giving up carries the last connect error, or the initial error when there were no attempts. |
| Reconnect.UnreachableAbortsWithoutDialling | handler-simple.py:54-57 | An engine that is down at the first probe is never dialled. The run is exactly one failed probe. |
| Reconnect.ReachableButNeverConnectedGivesUp | handler-simple.py:59-75 | With every dial failing, the protocol gives up after exactly max_attempts dials. |
| Reconnect.AllFailedRunsGiveUp | handler-simple.py:53-75 | From any attempt k, all-failed dials give up after exactly n-k dials. |
| Monitor.WatchCharacterised | handler-simple.py:389-424 | The loop stops at the first frame that does not keep it reading, and only there. An `executing` frame with no node and our prompt id ends with execution done and no error. An `execution_error` for our prompt ends with exactly one error line. A failed reconnect loses the job. While every frame keeps it reading, it waits on the channel the reconnects produced. |
| Monitor.WatchFrames | handler-simple.py:389-424 | The watch over the frames received; its behaviour is stated by `Monitor.WatchCharacterised` and `Monitor.MonitorLoop`. |
| Monitor.MonitorLoop | handler-simple.py:387-424 | The imperative loop over `ws`, `execution_done` and `errors` computes the same result as the functional watch. A finished watch has completion or an error. |
| Monitor.PostLoopCheck | handler-simple.py:426-427 | The protocol-violation error is raised exactly when the loop ended with neither completion nor an error. |
| Monitor.PostLoopCheckUnreachable | handler-simple.py:389-427 | The post-loop protocol-violation error can never be raised after a finished watch. |
| Monitor.InertFramesInvisible | handler-simple.py:389-424 | Timeouts, binary frames, bad JSON, status events and other prompts' events can be dropped without changing how the watch ends. |
| Monitor.DropInertFrame | handler-simple.py:392-423 | One inert frame leaves the loop's state unchanged. |
| Monitor.ResumesAfterReconnect | handler-simple.py:415-418 | After a drop that reconnects, the watch continues on the new channel with the remaining frames. |
| Monitor.FailedReconnectLosesJob | handler-simple.py:415-421 | After a drop whose reconnect fails, the job is lost whatever frames follow. |
| Upload.StripDataUri | handler-simple.py:153-157 | A payload without a comma is kept. Otherwise everything up to and including the first comma is removed. |
| Upload.StripDataUriRoundTrip | handler-simple.py:153-157 | Stripping `header,payload` with a comma-free header gives back the payload. |
| Upload.UploadOne | handler-simple.py:148-187 | An image is uploaded exactly when its data is text whose stripped payload decodes and whose POST is accepted. Every success or error line names the image. |
| Upload.NonStringDataError | handler-simple.py:151-159 | An `image` value that is not text fails with a Python error message that names its type. |
| Upload.OutcomesAppend | handler-simple.py:147-187 | One image's outcome does not depend on the images before it: the outcomes of a batch are those of its first part followed by those of the rest, which use the later POST outcomes. |
| Upload.FailureReported | handler-simple.py:172-195 | Every failed image's error line is among the reported failures. |
| Upload.NoFailuresMeansAllSucceeded | handler-simple.py:189-202 | There are no failure lines exactly when every image succeeded. The success lines are then all the lines in order. |
| Upload.UploadImages | handler-simple.py:135-202 | An absent or empty list is a success with no details. The batch succeeds exactly when every image did, and then lists every success line in order. Otherwise it lists exactly the failure lines, in input order, and at least one. |
| Upload.UploadAll | handler-simple.py:140-202 | The loop with `responses` and `upload_errors` computes the same report as the functional aggregation. |
| Submit.NodeLines | handler-simple.py:258-262 | A dict node error gives one "Node id (type): msg" line per entry, in order. Any other value gives "Node id: value". |
| Submit.NodeDetailsAppend | handler-simple.py:256-262 | Detail lines keep node order: the lines of earlier nodes come first. |
| Submit.BaseMessage | handler-simple.py:244-252 | The message is "Workflow validation failed" unless the `error` entry supplies its own text: `str()` of a non-dict, or the `message` of a dict whose type is not a failed validation. |
| Submit.AvailableCheckpoints | handler-simple.py:204-226 | No `/object_info` document, or one without the checkpoint loader, gives no checkpoint list. |
| Submit.CheckpointsRoundTrip | handler-simple.py:213-223 | For the document the engine serves for a loader offering some names, extraction returns exactly those names. |
| Submit.JoinNames | handler-simple.py:269 | Joining succeeds exactly when every name is a string, and then gives the ", "-joined names. Otherwise it gives Python's TypeError. |
| Submit.ModelsLine | handler-simple.py:263-284 | With no checkpoint listed, the line is the note that none appear to be available. With checkpoints listed, it fails exactly when one is not a string; otherwise it starts with "Available checkpoint models: " and names every checkpoint. With checkpoints listed and all strings, the line is exactly "Available checkpoint models: " and the names joined by ", ". |
| Submit.ListingRejection | handler-simple.py:276-286 | With node details, the message starts with "base:\n" and the bullet list, and contains every detail. The checkpoint list is consulted exactly when some detail mentions both "not in list" and "ckpt_name". Without such a detail the message ends with the list. With one, the checkpoint line follows after a blank line, and nothing else. |
| Submit.RejectionMessage | handler-simple.py:238-288 | A top-level `prompt_outputs_failed_validation` gives its own message, the model hint, and the checkpoint line on the next line, nothing more. Otherwise, with details, the message is the bulleted listing containing every detail, followed by the checkpoint line after a blank line exactly when a detail names a refused `ckpt_name`. Without details it is "message. Raw response: raw". Models are consulted only in those two cases. |
| Submit.RefusedCheckpointScenario | handler-simple.py:256-286 | Node "5" refusing a `ckpt_name`, with one checkpoint installed, gives exactly the default message, the bullet for that node, and the installed checkpoint's name. |
| Submit.Queue | handler-simple.py:370-385 | Submission yields a prompt id exactly when the engine accepted and returned a non-empty `prompt_id`. A request failure gives "Error queuing workflow: ...". A non-JSON 400 gives "could not parse". A 400 gives its built message. An unjoinable checkpoint list gives "Unexpected error queuing workflow: ...". An accepted reply without a non-empty `prompt_id` gives "Missing 'prompt_id' in queue response: " and the reply. |
| Collect.Classify | handler-simple.py:457-491 | Per image: `temp` is skipped silently. A missing or empty filename is a warning. A fetch that fails or returns nothing is an error. Otherwise the image is retrieved under its filename. |
| Collect.FirstGot | handler-simple.py:477-484 | The kept image is the first retrieved one: none is kept exactly when none was retrieved. |
| Collect.StepImage | handler-simple.py:455-492 | One image of the walk; `Collect.StepIsAbsorb` states it is the reference verdict for that image folded into the findings. |
| Collect.StepIsAbsorb | handler-simple.py:455-492 | One walk step equals folding the image's reference verdict into the findings. |
| Collect.WalkImages | handler-simple.py:453-492 | The walk over one node's images; stated by `Collect.WalkImagesIsAbsorb`. |
| Collect.Walk | handler-simple.py:452-499 | The walk over the manifest; stated by `Collect.WalkIsAbsorb`, `Collect.TempImagesInvisible` and `Collect.OtherKeysInvisible`. |
| Collect.WalkImagesIsAbsorb | handler-simple.py:453-491 | The walk over one node's images is the reference classification of each image, folded in order. |
| Collect.WalkIsAbsorb | handler-simple.py:452-499 | The whole walk keeps the first retrieved image, unless one was already kept. It appends one line per problem image, in manifest order, to the existing errors. |
| Collect.WalkKeepsEarlierFindings | handler-simple.py:445-491 | The walk never drops or reorders an error already recorded, and never replaces a kept image. |
| Collect.TempRefsInvisible | handler-simple.py:462-464 | Removing `temp` entries from a node's image list does not change the walk. |
| Collect.TempImagesInvisible | handler-simple.py:462-464 | Temporary previews never affect the result: walking the manifest equals walking it without `temp` entries. |
| Collect.OtherKeysInvisible | handler-simple.py:495-499 | Output keys other than `images` never affect the result or the errors. |
| Collect.Assemble | handler-simple.py:433-532 | A prompt missing from the history is an error, with the earlier errors plus the message as details if there were any. Otherwise the first retrieved image is a success even when errors were recorded. Without an image, all errors are reported in order, with the monitor's first and the missing-outputs warning only when nothing else went wrong. `success_no_images` happens exactly when nothing went wrong but nothing was retrieved. `success_no_images` carries the configured `refresh_worker`. |
| Handler.CheckServer | handler-simple.py:115-133 | The engine is ready exactly when one of the first `retries` probes answered 200. Probing stops at the first 200 and otherwise uses every slot. |
| Handler.Admit | handler-simple.py:326-353 | A validation failure is returned, or raised for a non-mapping. Then an unreachable engine is an error. Then a failed upload stops the job with every failure listed. The job proceeds exactly when it validated, the engine answered and every image (if any) uploaded; only a validation failure raises. |
| Handler.Execute | handler-simple.py:355-532 | The run against the engine once admitted; stated by `Handler.ExecuteFailures`, `Handler.ExecuteSuccessNeedsFullRun` and `Handler.ExecutionErrorStillCollects`. |
| Handler.Handle | handler-simple.py:326-532 | The whole handler: `Handler.Admit` then `Handler.Execute`; stated by `Handler.SuccessNeedsFullRun`, `Handler.FailedReconnectFailsJob`, `Handler.RejectedInputTouchesNothing` and `Handler.SingleImageJob`. |
| Handler.ExecuteSuccessNeedsFullRun | handler-simple.py:355-532 | Once the job is admitted, a successful response needs an open channel, a queued prompt whose watch finished, and a history that was read. It carries the configured `refresh_worker`. |
| Handler.ExecuteFailures | handler-simple.py:361-516 | A refused first connection gives "WebSocket communication error: " with its reason, and any other connection failure gives "An unexpected error occurred: ". A submission error's text becomes the job error unchanged. A lost channel always comes from a failed reconnect, and gives "WebSocket communication error: " with that failure. A finished watch whose history cannot be read gives "HTTP communication error with ComfyUI: " with the reason. |
| Handler.FailedReconnectFailsJob | handler-simple.py:389-421 | For an admitted job, a channel drop whose reconnect fails, after any inert frames, fails the job with "WebSocket communication error: " and the reconnect failure, whatever frames follow. |
| Handler.SuccessNeedsFullRun | handler-simple.py:326-532 | A successful response implies the input validated, the engine answered, the channel opened, the prompt was queued, the watch finished and the history was read. The success carries the configured `refresh_worker`. |
| Handler.RejectedInputTouchesNothing | handler-simple.py:335-337 | A rejected input's outcome does not depend on any network oracle. |
| Handler.SingleImageJob | handler-simple.py:326-524 | A workflow with one Data-URI image, uploaded, completed at once, and with one non-temp image in the history, succeeds with that image's base64 text. |
| Handler.ExecutionErrorStillCollects | handler-simple.py:347-440 | For any admitted job, with or without input images, an execution error ends the watch, yet the history is still read. The response is what collection makes of it, with the error line recorded. |
| Legacy.ValidateLegacyObject | handler-old.py:29-37 | Any falsy workflow, including an empty object, is "Missing 'workflow' parameter". A truthy image must answer the `in` test with both `name` and `image`. On success the job is the workflow and image unchanged. A truthy image lacking a key is "'image' must contain 'name' and 'image' keys"; one `in` cannot search raises the TypeError naming its type. |
| Legacy.LacksKeys | handler-old.py:34 | The key test raises exactly when `in` raises on the image. It passes exactly when the image contains both `name` and `image`. |
| Legacy.ValidateLegacy | handler-old.py:18-37 | `None` input gives "Please provide input". Unparsable text gives "Invalid JSON format in input". An object, or text that parses to one, goes to the object checks. Any other value, given or parsed, is a non-mapping whose `.get` raises. |
| Legacy.EmptyWorkflowSplitsValidators | handler-old.py:29-31 | An empty workflow object is accepted by the current validator and rejected by the earlier one. |
| Legacy.TextImageSplitsValidators | handler-old.py:33-35 | A text `image` that contains "name" and "image" passes the earlier validator but is rejected by the current one. |
| Legacy.LegacyAcceptanceCarriesOver | handler-old.py:29-37 | Where the earlier validator accepts an object image and `images` is falsy, the current one accepts with that image as a one-entry list. |
| Legacy.UploadLegacy | handler-old.py:56-74 | A falsy image is a no-op success. Upload succeeds exactly when the image object has both keys, decodes and is answered 200. Any other status is an error naming the file. |
| Legacy.PollHistory | handler-old.py:81-91 | It returns the outputs of the first reply where the prompt is present with non-empty outputs, and stops there. Without such a reply every poll is used and the result is a timeout. |
| Legacy.FirstImageNode | handler-old.py:96-98 | The chosen node is the first, in iteration order, with an `images` key. |
| Legacy.Retrieve | handler-old.py:98-108 | The first entry is retrieved exactly when it names its file and folder and the `/view` request answers 200, and then the content is returned. Any other status gives "Failed to retrieve image from" and the URL. |
| Legacy.GetImageFromMemory | handler-old.py:93-111 | Nothing is returned exactly when no node has images. Otherwise only the first entry of the first such node is considered. A success is that entry's `/view` content answered with 200. |
| Legacy.LegacyTakesTempPreview | handler-old.py:96-106 | The earlier selection returns a temporary preview that comes first, which the current walk skips. |

## Left out

- Network, websocket and RunPod calls are oracle parameters. Timeouts and sleeps are not
  modelled, so the reconnect `Slept` action only records the configured delay.
- The timing of both `check_server` versions is not modelled. The current one is modelled
  as "the first 200 within `retries` probes" (`Handler.CheckServer`). The earlier
  time-bounded version with its float backoff is left out. The earlier `get_history` poll
  is modelled over the replies received before its deadline.
- The base64 codec and `json.loads` are oracles. Only the Data-URI split is concrete.
  Base64 of the fetched bytes is the `/view` oracle's result, so "non-empty bytes" is
  "non-empty text".
- JSON numbers are integers only. A float from `json.loads` (such as `1.5`) is not
  modelled, so the Python type names in the error texts of `Validation.Validate`,
  `Upload.NonStringDataError`, `Legacy.ValidateLegacyObject` (its `NotIterable` error) and
  `Legacy.UploadLegacy` (its subscript error) never read `float`.
- Python `repr` escaping and quote choice are not modelled (`Json.Repr`, used for `str()` of
  non-string values).
- The engine's error body, history manifest and websocket messages are typed records with
  fixed field types. Crashes from documents of another shape are not modelled: a
  non-object `node_errors`, a non-dict queue reply, a non-list `images` in the manifest,
  a null `subfolder`, or a JSON websocket message that is not an object.
- Exceptions raised inside the watch loop other than a timeout, a closed channel and bad
  JSON are not modelled.
- Exception-class prefixes of the handler's outer `except` chain are modelled only where a
  modelled operation raises. These are the first connection, the history fetch, a failed
  reconnect and queueing. The encoding-error branch of the walk is left out, since
  encoding bytes as base64 cannot fail.
- uuid client ids, logging, the S3 upload path of the earlier worker, and environment
  reads are not modelled. Configuration is a `Handler.Config` value, and
  `Handler.DefaultConfig` holds the defaults.
- Closing the websocket on exit is resource release and is left out.
- The earlier worker's `handler`, `queue_workflow` and `check_server` are not part of this
  model. The earlier upload, validation, history poll and image selection are.
- `Monitor.Watch.Waiting` stands for a stream that has not yet delivered a terminal frame.
  The worker would keep blocking on `recv`.

=== FILE: collect.dfy ===
/** Result collection after execution: the walk over the history's output manifest,
    image retrieval through `/view`, and assembly of the job's response. */
module Collect {
  import opened Wrappers
  import Dict

  /** One entry of a node's `images` list: `filename`, `subfolder` and `type` when present,
      and the entry as `str()` renders it. */
  datatype ImageRef = ImageRef(filename: Option<string>, subfolder: Option<string>, kind: Option<string>, shown: string)

  /** A node's output: its `images` list when that key is present, and its other keys. */
  datatype NodeOutput = NodeOutput(images: Option<seq<ImageRef>>, otherKeys: seq<string>)

  /** The query of one `/view` request. */
  datatype ViewKey = ViewKey(filename: string, subfolder: string, kind: Option<string>)

  /** The `/view` endpoint: the base64 text of the fetched bytes, or `None` when the
      request failed (a timeout, an error status, any other exception). Base64 of no
      bytes is the empty text, so an empty body is `Some("")`. */
  type Fetch = ViewKey -> Option<string>

  /** The image kept as the job's result. */
  datatype Artifact = Artifact(filename: string, data: string)

  /** The walk's state: the first image retrieved, and the error list. */
  datatype Collected = Collected(first: Option<Artifact>, errors: seq<string>)

  const TempKind := "temp"

  function MissingFilename(nodeId: string, shown: string): string {
    "Skipping image in node " + nodeId + " due to missing filename: " + shown
  }

  function FetchFailed(filename: string): string {
    "Failed to fetch image data for " + filename + " from /view endpoint."
  }

  function NoOutputs(promptId: string): string {
    "No outputs found in history for prompt " + promptId + "."
  }

  function KeyOf(filename: string, r: ImageRef): ViewKey {
    ViewKey(filename, r.subfolder.GetOr(""), r.kind)
  }

  /** The `/view` request for `filename` returned non-empty content. */
  predicate Retrieved(fetch: Fetch, key: ViewKey) {
    fetch(key).Some? && fetch(key).value != ""
  }

  // ---------------------------------------------------------------------------
  // The walk, as the handler performs it: one image after another, one node after another.
  // ---------------------------------------------------------------------------

  /** The handling of one image entry. */
  function StepImage(c: Collected, nodeId: string, r: ImageRef, fetch: Fetch): Collected {
    if r.kind == Some(TempKind) then c
    else if r.filename.None? || r.filename.value == "" then
      c.(errors := c.errors + [MissingFilename(nodeId, r.shown)])
    else if Retrieved(fetch, KeyOf(r.filename.value, r)) then
      if c.first.None? then c.(first := Some(Artifact(r.filename.value, fetch(KeyOf(r.filename.value, r)).value)))
      else c
    else c.(errors := c.errors + [FetchFailed(r.filename.value)])
  }

  function WalkImages(c: Collected, nodeId: string, refs: seq<ImageRef>, fetch: Fetch): Collected
    decreases |refs|
  {
    if |refs| == 0 then c else WalkImages(StepImage(c, nodeId, refs[0], fetch), nodeId, refs[1..], fetch)
  }

  /** The walk over the output nodes in manifest order. Other output keys are only logged. */
  function Walk(c: Collected, outputs: seq<(string, NodeOutput)>, fetch: Fetch): Collected
    decreases |outputs|
  {
    if |outputs| == 0 then c
    else
      var (nodeId, output) := outputs[0];
      var next := if output.images.Some? then WalkImages(c, nodeId, output.images.value, fetch) else c;
      Walk(next, outputs[1..], fetch)
  }

  // ---------------------------------------------------------------------------
  // A reference description: what each image entry amounts to, independently of the walk.
  // ---------------------------------------------------------------------------

  datatype Verdict = Skipped | Problem(line: string) | Got(artifact: Artifact)

  /** What one image entry amounts to. */
  function Classify(nodeId: string, r: ImageRef, fetch: Fetch): (v: Verdict)
    ensures v.Skipped? <==> r.kind == Some(TempKind)
    ensures v.Got? <==> r.kind != Some(TempKind) && r.filename.Some? && r.filename.value != ""
                        && Retrieved(fetch, KeyOf(r.filename.value, r))
    ensures v.Got? ==> v.artifact.filename == r.filename.value
  {
    if r.kind == Some(TempKind) then Skipped
    else if r.filename.None? || r.filename.value == "" then Problem(MissingFilename(nodeId, r.shown))
    else if Retrieved(fetch, KeyOf(r.filename.value, r)) then
      Got(Artifact(r.filename.value, fetch(KeyOf(r.filename.value, r)).value))
    else Problem(FetchFailed(r.filename.value))
  }

  function ClassifyAll(nodeId: string, refs: seq<ImageRef>, fetch: Fetch): seq<Verdict> {
    seq(|refs|, k requires 0 <= k < |refs| => Classify(nodeId, refs[k], fetch))
  }

  /** The verdicts of every image entry of every node, in manifest order. */
  function Verdicts(outputs: seq<(string, NodeOutput)>, fetch: Fetch): seq<Verdict> {
    if |outputs| == 0 then []
    else
      (if outputs[0].1.images.Some? then ClassifyAll(outputs[0].0, outputs[0].1.images.value, fetch) else [])
      + Verdicts(outputs[1..], fetch)
  }

  function Problems(vs: seq<Verdict>): seq<string> {
    if |vs| == 0 then [] else (if vs[0].Problem? then [vs[0].line] else []) + Problems(vs[1..])
  }

  function FirstGot(vs: seq<Verdict>): (r: Option<Artifact>)
    ensures r.None? <==> forall k :: 0 <= k < |vs| ==> !vs[k].Got?
    ensures r.Some? ==> exists k :: 0 <= k < |vs| && vs[k] == Got(r.value)
                                    && forall j :: 0 <= j < k ==> !vs[j].Got?
  {
    if |vs| == 0 then None
    else if vs[0].Got? then Some(vs[0].artifact)
    else
      var rest := FirstGot(vs[1..]);
      if rest.Some? then
        var k :| 0 <= k < |vs| - 1 && vs[1..][k] == Got(rest.value) && forall j :: 0 <= j < k ==> !vs[1..][j].Got?;
        assert vs[k + 1] == Got(rest.value);
        rest
      else rest
  }

  /** Folding verdicts into a state: the reference counterpart of the walk. */
  function Absorb(c: Collected, vs: seq<Verdict>): Collected {
    Collected(if c.first.Some? then c.first else FirstGot(vs), c.errors + Problems(vs))
  }

  lemma {:induction false} ProblemsAppend(a: seq<Verdict>, b: seq<Verdict>)
    ensures Problems(a + b) == Problems(a) + Problems(b)
    decreases |a|
  {
    if |a| == 0 {
      assert a + b == b;
    } else {
      assert (a + b)[1..] == a[1..] + b;
      ProblemsAppend(a[1..], b);
    }
  }

  lemma {:induction false} FirstGotAppend(a: seq<Verdict>, b: seq<Verdict>)
    ensures FirstGot(a + b) == if FirstGot(a).Some? then FirstGot(a) else FirstGot(b)
    decreases |a|
  {
    if |a| == 0 {
      assert a + b == b;
    } else {
      assert (a + b)[1..] == a[1..] + b;
      FirstGotAppend(a[1..], b);
    }
  }

  lemma AbsorbAppend(c: Collected, a: seq<Verdict>, b: seq<Verdict>)
    ensures Absorb(c, a + b) == Absorb(Absorb(c, a), b)
  {
    ProblemsAppend(a, b);
    FirstGotAppend(a, b);
  }

  lemma StepIsAbsorb(c: Collected, nodeId: string, r: ImageRef, fetch: Fetch)
    ensures StepImage(c, nodeId, r, fetch) == Absorb(c, [Classify(nodeId, r, fetch)])
  {
    var v := Classify(nodeId, r, fetch);
    assert Problems([v]) == (if v.Problem? then [v.line] else []) + Problems([]);
    if v.Skipped? || v.Got? {
      assert c.errors + [] == c.errors;
    }
  }

  lemma {:induction false} WalkImagesIsAbsorb(c: Collected, nodeId: string, refs: seq<ImageRef>, fetch: Fetch)
    ensures WalkImages(c, nodeId, refs, fetch) == Absorb(c, ClassifyAll(nodeId, refs, fetch))
    decreases |refs|
  {
    var all := ClassifyAll(nodeId, refs, fetch);
    if |refs| == 0 {
      assert c.errors + [] == c.errors;
      assert c.first.None? ==> FirstGot(all) == None;
    } else {
      var head := Classify(nodeId, refs[0], fetch);
      StepIsAbsorb(c, nodeId, refs[0], fetch);
      WalkImagesIsAbsorb(StepImage(c, nodeId, refs[0], fetch), nodeId, refs[1..], fetch);
      assert all == [head] + ClassifyAll(nodeId, refs[1..], fetch);
      AbsorbAppend(c, [head], ClassifyAll(nodeId, refs[1..], fetch));
    }
  }

  /** The walk is the reference fold: the first retrieved image (unless one was already
      kept) and, appended to the existing errors, one line per problem entry in order. */
  lemma {:induction false} WalkIsAbsorb(c: Collected, outputs: seq<(string, NodeOutput)>, fetch: Fetch)
    ensures Walk(c, outputs, fetch) == Absorb(c, Verdicts(outputs, fetch))
    decreases |outputs|
  {
    if |outputs| == 0 {
      assert c.errors + [] == c.errors;
    } else {
      var (nodeId, output) := outputs[0];
      var here := if output.images.Some? then ClassifyAll(nodeId, output.images.value, fetch) else [];
      var next := if output.images.Some? then WalkImages(c, nodeId, output.images.value, fetch) else c;
      if output.images.Some? {
        WalkImagesIsAbsorb(c, nodeId, output.images.value, fetch);
      } else {
        assert c.errors + [] == c.errors;
      }
      assert next == Absorb(c, here);
      WalkIsAbsorb(next, outputs[1..], fetch);
      AbsorbAppend(c, here, Verdicts(outputs[1..], fetch));
    }
  }

  /** The walk never drops or reorders an error already recorded, and the first image it
      keeps is never replaced. */
  lemma WalkKeepsEarlierFindings(c: Collected, outputs: seq<(string, NodeOutput)>, fetch: Fetch)
    ensures c.errors <= Walk(c, outputs, fetch).errors
    ensures c.first.Some? ==> Walk(c, outputs, fetch).first == c.first
  {
    WalkIsAbsorb(c, outputs, fetch);
  }

  // ---------------------------------------------------------------------------
  // Properties of the walk stated on the manifest.
  // ---------------------------------------------------------------------------

  function DropTempRefs(refs: seq<ImageRef>): (r: seq<ImageRef>)
    ensures forall k :: 0 <= k < |r| ==> r[k].kind != Some(TempKind)
    ensures |r| <= |refs|
  {
    if |refs| == 0 then []
    else if refs[0].kind == Some(TempKind) then DropTempRefs(refs[1..])
    else [refs[0]] + DropTempRefs(refs[1..])
  }

  /** The manifest with every `temp` image entry removed. */
  function DropTemp(outputs: seq<(string, NodeOutput)>): (r: seq<(string, NodeOutput)>)
    ensures |r| == |outputs|
  {
    if |outputs| == 0 then []
    else
      var (nodeId, output) := outputs[0];
      var images := if output.images.Some? then Some(DropTempRefs(output.images.value)) else None;
      [(nodeId, output.(images := images))] + DropTemp(outputs[1..])
  }

  lemma {:induction false} TempRefsInvisible(c: Collected, nodeId: string, refs: seq<ImageRef>, fetch: Fetch)
    ensures WalkImages(c, nodeId, refs, fetch) == WalkImages(c, nodeId, DropTempRefs(refs), fetch)
    decreases |refs|
  {
    if |refs| > 0 {
      TempRefsInvisible(StepImage(c, nodeId, refs[0], fetch), nodeId, refs[1..], fetch);
      if refs[0].kind != Some(TempKind) {
        assert ([refs[0]] + DropTempRefs(refs[1..]))[1..] == DropTempRefs(refs[1..]);
      }
    }
  }

  /** Temporary previews never affect the result: the walk over the manifest equals the
      walk over the manifest without its `temp` entries. */
  lemma {:induction false} TempImagesInvisible(c: Collected, outputs: seq<(string, NodeOutput)>, fetch: Fetch)
    ensures Walk(c, outputs, fetch) == Walk(c, DropTemp(outputs), fetch)
    decreases |outputs|
  {
    if |outputs| > 0 {
      var (nodeId, output) := outputs[0];
      var next := if output.images.Some? then WalkImages(c, nodeId, output.images.value, fetch) else c;
      if output.images.Some? {
        TempRefsInvisible(c, nodeId, output.images.value, fetch);
      }
      TempImagesInvisible(next, outputs[1..], fetch);
      assert DropTemp(outputs)[1..] == DropTemp(outputs[1..]);
    }
  }

  /** The manifest with every node's other output keys replaced. */
  function WithOtherKeys(outputs: seq<(string, NodeOutput)>, keys: seq<string>): (r: seq<(string, NodeOutput)>)
    ensures |r| == |outputs|
    ensures forall k :: 0 <= k < |r| ==> r[k].0 == outputs[k].0 && r[k].1.images == outputs[k].1.images
                                         && r[k].1.otherKeys == keys
  {
    seq(|outputs|, k requires 0 <= k < |outputs| => (outputs[k].0, outputs[k].1.(otherKeys := keys)))
  }

  /** Output keys other than `images` (text, video, ...) never reach the result. */
  lemma {:induction false} OtherKeysInvisible(c: Collected, outputs: seq<(string, NodeOutput)>, keys: seq<string>,
                                              fetch: Fetch)
    ensures Walk(c, outputs, fetch) == Walk(c, WithOtherKeys(outputs, keys), fetch)
    decreases |outputs|
  {
    if |outputs| > 0 {
      var (nodeId, output) := outputs[0];
      var next := if output.images.Some? then WalkImages(c, nodeId, output.images.value, fetch) else c;
      OtherKeysInvisible(next, outputs[1..], keys, fetch);
      assert WithOtherKeys(outputs, keys)[1..] == WithOtherKeys(outputs[1..], keys);
    }
  }

  // ---------------------------------------------------------------------------
  // The job's response.
  // ---------------------------------------------------------------------------

  /** The handler's return value: `{status: success, message, refresh_worker}`,
      `{status: success_no_images, refresh_worker}`, or `{error[, details]}`. */
  datatype Response =
    | Succeeded(image: string, refreshWorker: bool)
    | NoImages(refreshWorker: bool)
    | Failed(error: string, details: Option<seq<string>>)

  /** The history reply for the job's prompt: the outputs of each prompt in the history.
      A prompt record without `outputs` has an empty manifest. */
  type History = seq<(string, seq<(string, NodeOutput)>)>

  /** The errors before the walk: the monitor's errors, or the missing-outputs warning when
      the manifest is empty and nothing else went wrong. */
  function Seed(promptId: string, errors: seq<string>, outputs: seq<(string, NodeOutput)>): seq<string> {
    if |outputs| == 0 && |errors| == 0 then [NoOutputs(promptId)] else errors
  }

  /** The response assembled from the history once monitoring has ended with `errors`. */
  function Assemble(promptId: string, errors: seq<string>, history: History, fetch: Fetch, refreshWorker: bool)
    : (r: Response)
    // A prompt absent from the history fails the job, keeping the monitor's errors.
    ensures !Dict.HasKey(history, promptId) ==>
              r == (if |errors| == 0 then Failed("Prompt ID " + promptId + " not found in history after execution.", None)
                    else Failed("Job processing failed, prompt ID not found in history.",
                                Some(errors + ["Prompt ID " + promptId + " not found in history after execution."])))
    ensures Dict.HasKey(history, promptId) ==>
              var outputs := Dict.Lookup(history, promptId).value;
              var vs := Verdicts(outputs, fetch);
              // The first retrieved image is the result, whatever else went wrong.
              && (r.Succeeded? <==> FirstGot(vs).Some?)
              && (r.Succeeded? ==> r == Succeeded(FirstGot(vs).value.data, refreshWorker))
              // Without an image, every error is reported in order, the monitor's first.
              && (FirstGot(vs).None? && |Seed(promptId, errors, outputs) + Problems(vs)| > 0 ==>
                    r == Failed("Job processing failed", Some(Seed(promptId, errors, outputs) + Problems(vs))))
              // A clean run that retrieved nothing ends with no images, and carries the flag.
              && (r.NoImages? <==> FirstGot(vs).None? && |errors| == 0 && |outputs| > 0 && |Problems(vs)| == 0)
              && (r.NoImages? ==> r == NoImages(refreshWorker))
  {
    match Dict.Lookup(history, promptId)
    case None =>
      var message := "Prompt ID " + promptId + " not found in history after execution.";
      if |errors| == 0 then Failed(message, None)
      else Failed("Job processing failed, prompt ID not found in history.", Some(errors + [message]))
    case Some(outputs) =>
      var c := Walk(Collected(None, Seed(promptId, errors, outputs)), outputs, fetch);
      WalkIsAbsorb(Collected(None, Seed(promptId, errors, outputs)), outputs, fetch);
      if c.first.Some? then Succeeded(c.first.value.data, refreshWorker)
      else if |c.errors| > 0 then Failed("Job processing failed", Some(c.errors))
      else NoImages(refreshWorker)
  }
}

=== FILE: dict.dfy ===
/** Python dictionaries as ordered association lists.
    A Python `dict` keeps insertion order, and iteration over `.items()` follows it,
    so a dictionary is modelled as the sequence of its entries in that order.
    Keys of a real dictionary are unique; lookups below return the first match. */
module Dict {
  import opened Wrappers

  /** `key in d` */
  predicate HasKey<V>(d: seq<(string, V)>, key: string) {
    exists i :: 0 <= i < |d| && d[i].0 == key
  }

  /** `d[key]` when present, `None` otherwise. */
  function Lookup<V>(d: seq<(string, V)>, key: string): (r: Option<V>)
    ensures r.Some? <==> HasKey(d, key)
    ensures r.Some? ==> exists i :: 0 <= i < |d| && d[i] == (key, r.value)
  {
    if |d| == 0 then None
    else if d[0].0 == key then Some(d[0].1)
    else
      var r := Lookup(d[1..], key);
      assert HasKey(d, key) ==> HasKey(d[1..], key) by {
        if HasKey(d, key) {
          var i :| 0 <= i < |d| && d[i].0 == key;
          assert d[1..][i - 1].0 == key;
        }
      }
      assert r.Some? ==> HasKey(d, key) by {
        if r.Some? {
          var i :| 0 <= i < |d[1..]| && d[1..][i].0 == key;
          assert d[i + 1].0 == key;
        }
      }
      assert r.Some? ==> exists i :: 0 <= i < |d| && d[i] == (key, r.value) by {
        if r.Some? {
          var i :| 0 <= i < |d[1..]| && d[1..][i] == (key, r.value);
          assert d[i + 1] == (key, r.value);
        }
      }
      r
  }
}

=== FILE: handler.dfy ===
/** The job handler of the current worker: validation, the engine readiness probe,
    image upload, submission, monitoring and result collection, composed in the
    order `handler` runs them. Every effect is an oracle held in a `World`. */
module Handler {
  import opened Wrappers
  import opened Json
  import Validation
  import Reconnect
  import Upload
  import Submit
  import Monitor
  import Collect
  import Dict

  /** The engine's address. */
  const ComfyHost := "127.0.0.1:8188"
  /** How many readiness probes the handler makes before giving up. */
  const ApiMaxRetries := 500

  /** Start-up configuration: whether the platform should recycle the worker after each
      job, and the websocket reconnection limits. */
  datatype Config = Config(refreshWorker: bool, settings: Monitor.Settings)

  /** The configuration when no environment override is set. */
  const DefaultConfig := Config(false, Monitor.Settings(5, 3))

  /** Some readiness probe among the first `retries` answered HTTP 200. */
  predicate ServerReady(retries: nat, probes: nat -> Reconnect.Probe) {
    exists i :: 0 <= i < retries && probes(i).Reachable()
  }

  /** `check_server`: probe until the first HTTP 200, at most `retries` times. Pauses
      between probes are not modelled. */
  method CheckServer(retries: nat, probes: nat -> Reconnect.Probe) returns (up: bool, tried: nat)
    ensures up <==> ServerReady(retries, probes)
    ensures tried <= retries
    // It stops at the first success and probes every slot otherwise.
    ensures up ==> 0 < tried && probes(tried - 1).Reachable()
    ensures forall j :: 0 <= j < tried - (if up then 1 else 0) ==> !probes(j).Reachable()
    ensures !up ==> tried == retries
  {
    var i := 0;
    while i < retries
      invariant i <= retries
      invariant forall j :: 0 <= j < i ==> !probes(j).Reachable()
    {
      if probes(i).Reachable() {
        return true, i + 1;
      }
      i := i + 1;
    }
    return false, retries;
  }

  /** The first websocket connection: open, or refused with a websocket error or with an
      operating-system error (which the handler reports as unexpected). */
  datatype FirstDial = Open(channel: Reconnect.Channel) | WebSocketRefused(reason: string) | OsRefused(reason: string)

  /** Everything the handler learns from outside: how text input parses, the readiness
      probes, the upload decoder and per-image POST outcomes, the first connection, the
      `/prompt` reply and `/object_info` document, the websocket frames, the `/history`
      reply (or the error that fetching it raised) and the `/view` endpoint. */
  datatype World = World(
    parse: string -> Option<Json>,
    probes: nat -> Reconnect.Probe,
    decode: string -> Upload.Decode,
    post: nat -> Upload.Post,
    dial: FirstDial,
    reply: Submit.Reply,
    objectInfo: Option<Json>,
    frames: seq<Monitor.Frame>,
    history: Result<Collect.History, string>,
    fetch: Collect.Fetch)

  /** How a job ends: a returned response, an exception that escapes the handler, or a
      watch still waiting because no terminal frame has arrived yet. */
  datatype Outcome = Returns(response: Collect.Response) | Raises(text: string) | StillWaiting

  /** A validated image entry as `upload_images` reads it. */
  function ToEntry(image: Json): (e: Upload.Entry)
    ensures Validation.WellShaped(image) ==>
              e == Upload.Entry(Get(image.fields, "name"), Get(image.fields, "image"))
  {
    if image.JObj? then Upload.Entry(Get(image.fields, "name"), Get(image.fields, "image"))
    else Upload.Entry(JNull, JNull)
  }

  function Entries(images: seq<Json>): seq<Upload.Entry> {
    seq(|images|, k requires 0 <= k < |images| => ToEntry(images[k]))
  }

  /** The upload of a validated job's images. */
  function UploadReport(job: Validation.Job, w: World): Upload.Report
    requires job.images.Some?
  {
    Upload.UploadImages(Some(Entries(job.images.value)), w.decode, w.post)
  }

  const NotReachable := "ComfyUI server (" + ComfyHost + ") not reachable after multiple retries."

  function Fail(error: string): Outcome {
    Returns(Collect.Failed(error, None))
  }

  /** Everything after the upload: the connection, submission, the watch, and collection. */
  function Execute(cfg: Config, w: World): Outcome {
    match w.dial
    case WebSocketRefused(e) => Fail("WebSocket communication error: " + e)
    case OsRefused(e) => Fail("An unexpected error occurred: " + e)
    case Open(ch) =>
      match Submit.Queue(w.reply, w.objectInfo)
      case Failure(text) => Fail(text)
      case Success(promptId) =>
        Monitor.LostMeansReconnectFailed(cfg.settings, promptId, ch, w.frames);
        match Monitor.WatchFrames(cfg.settings, promptId, ch, w.frames)
        case Waiting(_) => StillWaiting
        case Lost(o) => Fail("WebSocket communication error: " + Reconnect.FailureText(o))
        case Finished(_, _, errors) =>
          match w.history
          case Failure(e) => Fail("HTTP communication error with ComfyUI: " + e)
          case Success(h) => Returns(Collect.Assemble(promptId, errors, h, w.fetch, cfg.refreshWorker))
  }

  /** The stages of `handler(job)` before any connection: validation, the readiness
      probe and the image upload. `Failure` carries the job's final outcome. */
  function Admit(input: Json, w: World): (r: Result<Validation.Job, Outcome>)
    // A non-object input makes validation itself raise, outside the handler's try.
    ensures Validation.Validate(input, w.parse).Failure? ==>
              var e := Validation.Validate(input, w.parse).error;
              r == Failure(if e.NotAMapping? then Raises(Validation.ErrorText(e)) else Fail(Validation.ErrorText(e)))
    ensures Validation.Validate(input, w.parse).Success? && !ServerReady(ApiMaxRetries, w.probes) ==>
              r == Failure(Fail(NotReachable))
    // A failed upload stops the job before any connection, listing every failure.
    ensures Validation.Validate(input, w.parse).Success? && ServerReady(ApiMaxRetries, w.probes)
            && Validation.Validate(input, w.parse).value.images.Some?
            && !UploadReport(Validation.Validate(input, w.parse).value, w).ok ==>
              r == Failure(Returns(Collect.Failed("Failed to upload one or more input images",
                                                  Some(UploadReport(Validation.Validate(input, w.parse).value, w).details))))
    ensures r.Success? <==> Validation.Validate(input, w.parse).Success? && ServerReady(ApiMaxRetries, w.probes)
                            && (Validation.Validate(input, w.parse).value.images.Some? ==>
                                  UploadReport(Validation.Validate(input, w.parse).value, w).ok)
    ensures r.Success? ==> r.value == Validation.Validate(input, w.parse).value
    ensures r.Failure? && r.error.Raises? ==> Validation.Validate(input, w.parse).Failure?
  {
    match Validation.Validate(input, w.parse)
    case Failure(e) =>
      Failure(if e.NotAMapping? then Raises(Validation.ErrorText(e)) else Fail(Validation.ErrorText(e)))
    case Success(job) =>
      if !ServerReady(ApiMaxRetries, w.probes) then Failure(Fail(NotReachable))
      else if job.images.Some? && !UploadReport(job, w).ok then
        Failure(Returns(Collect.Failed("Failed to upload one or more input images", Some(UploadReport(job, w).details))))
      else Success(job)
  }

  /** `handler(job)`: the admission stages, then the run against the engine. */
  function Handle(cfg: Config, input: Json, w: World): Outcome {
    match Admit(input, w)
    case Failure(o) => o
    case Success(_) => Execute(cfg, w)
  }

  /** A success of the run against the engine needs an open channel, a queued prompt
      whose watch finished, and a history that was read; it carries the configured
      `refresh_worker`. */
  lemma ExecuteSuccessNeedsFullRun(cfg: Config, w: World)
    ensures Execute(cfg, w).Returns? && Execute(cfg, w).response.Succeeded? ==>
              && w.dial.Open? && Submit.Queue(w.reply, w.objectInfo).Success?
              && Monitor.WatchFrames(cfg.settings, Submit.Queue(w.reply, w.objectInfo).value, w.dial.channel,
                                     w.frames).Finished?
              && w.history.Success?
              && Execute(cfg, w).response.refreshWorker == cfg.refreshWorker
  {
  }

  /** A success always has a validated input and a ready engine, besides everything the
      run against the engine needs. */
  lemma {:induction false} SuccessNeedsFullRun(cfg: Config, input: Json, w: World)
    ensures Handle(cfg, input, w).Returns? && Handle(cfg, input, w).response.Succeeded? ==>
              && Validation.Validate(input, w.parse).Success?
              && ServerReady(ApiMaxRetries, w.probes)
              && w.dial.Open? && Submit.Queue(w.reply, w.objectInfo).Success?
              && Monitor.WatchFrames(cfg.settings, Submit.Queue(w.reply, w.objectInfo).value, w.dial.channel,
                                     w.frames).Finished?
              && w.history.Success?
              && Handle(cfg, input, w).response.refreshWorker == cfg.refreshWorker
  {
    if Admit(input, w).Success? {
      assert Handle(cfg, input, w) == Execute(cfg, w);
      ExecuteSuccessNeedsFullRun(cfg, w);
    }
  }

  /** How the run against the engine fails: a refused first connection, a refused
      submission, a lost channel and an unreadable history each end the job with an error
      that carries its origin. */
  lemma ExecuteFailures(cfg: Config, w: World)
    ensures w.dial.WebSocketRefused? ==> Execute(cfg, w) == Fail("WebSocket communication error: " + w.dial.reason)
    ensures w.dial.OsRefused? ==> Execute(cfg, w) == Fail("An unexpected error occurred: " + w.dial.reason)
    // The text of the error `queue_workflow` raises becomes the job's error unchanged.
    ensures w.dial.Open? && Submit.Queue(w.reply, w.objectInfo).Failure? ==>
              Execute(cfg, w) == Fail(Submit.Queue(w.reply, w.objectInfo).error)
    ensures w.dial.Open? && Submit.Queue(w.reply, w.objectInfo).Success? ==>
              var watch := Monitor.WatchFrames(cfg.settings, Submit.Queue(w.reply, w.objectInfo).value,
                                               w.dial.channel, w.frames);
              && (watch.Lost? ==> !watch.failure.Reconnected?)
              && (watch.Lost? && !watch.failure.Reconnected? ==>
                    Execute(cfg, w) == Fail("WebSocket communication error: " + Reconnect.FailureText(watch.failure)))
              && (watch.Finished? && w.history.Failure? ==>
                    Execute(cfg, w) == Fail("HTTP communication error with ComfyUI: " + w.history.error))
  {
    if w.dial.Open? && Submit.Queue(w.reply, w.objectInfo).Success? {
      Monitor.LostMeansReconnectFailed(cfg.settings, Submit.Queue(w.reply, w.objectInfo).value, w.dial.channel, w.frames);
    }
  }

  /** A channel that drops and cannot be re-established fails the job, whatever frames
      the engine would have sent afterwards. */
  lemma FailedReconnectFailsJob(cfg: Config, input: Json, w: World, promptId: string,
                                noise: seq<Monitor.Frame>, drop: Monitor.Frame, rest: seq<Monitor.Frame>)
    requires Admit(input, w).Success?
    requires w.dial.Open? && Submit.Queue(w.reply, w.objectInfo) == Success(promptId)
    requires forall j :: 0 <= j < |noise| ==> Monitor.Inert(noise[j], promptId)
    requires drop.Closed? && !Monitor.ReconnectRun(cfg.settings, drop).outcome.Reconnected?
    requires w.frames == noise + [drop] + rest
    ensures Handle(cfg, input, w)
         == Fail("WebSocket communication error: " + Reconnect.FailureText(Monitor.ReconnectRun(cfg.settings, drop).outcome))
  {
    Monitor.FailedReconnectLosesJob(cfg.settings, promptId, w.dial.channel, noise, drop, rest);
    ExecuteFailures(cfg, w);
  }

  /** A rejected input is answered without touching the engine: the outcome does not
      depend on any network oracle. */
  lemma RejectedInputTouchesNothing(cfg: Config, input: Json, w1: World, w2: World)
    requires Validation.Validate(input, w1.parse).Failure?
    requires w1.parse == w2.parse
    ensures Handle(cfg, input, w1) == Handle(cfg, input, w2)
  {
  }

  /** The single-image job: a workflow and one image given as a data URI. When the engine
      is up, the upload is accepted, the prompt completes at once and the history lists
      one non-temporary image that `/view` serves, the job succeeds with that image. */
  lemma {:induction false} SingleImageJob(cfg: Config, workflow: Json, name: string, uri: string, w: World,
                                          promptId: string, nodeId: string, image: Collect.ImageRef, data: string)
    requires workflow != JNull
    requires w.probes(0).Reachable()
    requires w.decode(Upload.StripDataUri(uri)) == Upload.Decoded && w.post(0) == Upload.Posted
    requires w.dial.Open?
    requires w.reply.Accepted? && w.reply.promptId == Some(promptId) && promptId != ""
    requires |w.frames| > 0 && Monitor.IsCompletion(w.frames[0], promptId)
    requires image.kind != Some(Collect.TempKind) && image.filename.Some? && image.filename.value != ""
    requires w.history == Success([(promptId, [(nodeId, Collect.NodeOutput(Some([image]), []))])])
    requires w.fetch(Collect.KeyOf(image.filename.value, image)) == Some(data) && data != ""
    ensures Handle(cfg, JObj([("workflow", workflow),
                              ("images", JArr([JObj([("name", JStr(name)), ("image", JStr(uri))])]))]), w)
         == Returns(Collect.Succeeded(data, cfg.refreshWorker))
  {
    // Validation.
    var entry := JObj([("name", JStr(name)), ("image", JStr(uri))]);
    var fields := [("workflow", workflow), ("images", JArr([entry]))];
    assert fields[0].0 == "workflow" && fields[1].0 == "images";
    assert Get(fields, "workflow") == workflow;
    assert Get(fields, "images") == JArr([entry]);
    assert !Dict.HasKey(fields, "image");
    assert entry.fields[0].0 == "name" && entry.fields[1].0 == "image";
    assert Validation.WellShaped(entry);
    var job := Validation.Validate(JObj(fields), w.parse);
    assert job == Success(Validation.Job(workflow, Some([entry])));
    // Readiness and upload.
    assert ServerReady(ApiMaxRetries, w.probes);
    assert Get(entry.fields, "name") == JStr(name);
    assert Get(entry.fields, "image") == JStr(uri);
    var entries := Entries([entry]);
    assert entries == [Upload.Entry(JStr(name), JStr(uri))];
    var rs := Upload.Outcomes(entries, w.decode, w.post);
    assert rs[0].Success?;
    assert Upload.UploadImages(Some(entries), w.decode, w.post).ok;
    // Submission and the watch.
    assert Submit.Queue(w.reply, w.objectInfo) == Success(promptId);
    var ch := w.dial.channel;
    assert Monitor.WatchFrames(cfg.settings, promptId, ch, w.frames) == Monitor.Finished(ch, true, []);
    // Collection.
    var outputs := [(nodeId, Collect.NodeOutput(Some([image]), []))];
    var h := [(promptId, outputs)];
    assert Dict.Lookup(h, promptId) == Some(outputs);
    var vs := Collect.Verdicts(outputs, w.fetch);
    assert outputs[1..] == [];
    assert vs == Collect.ClassifyAll(nodeId, [image], w.fetch) + Collect.Verdicts(outputs[1..], w.fetch);
    assert vs[0] == Collect.Got(Collect.Artifact(image.filename.value, data));
    assert Collect.FirstGot(vs) == Some(Collect.Artifact(image.filename.value, data));
    assert Execute(cfg, w) == Returns(Collect.Assemble(promptId, [], h, w.fetch, cfg.refreshWorker));
  }

  /** An execution error ends the watch, yet the history is still read: the job returns
      whatever collection makes of that history with the error line recorded. */
  lemma ExecutionErrorStillCollects(cfg: Config, input: Json, w: World, promptId: string, h: Collect.History)
    requires Admit(input, w).Success?
    requires w.dial.Open? && Submit.Queue(w.reply, w.objectInfo) == Success(promptId)
    requires |w.frames| > 0 && Monitor.IsExecutionError(w.frames[0], promptId)
    requires w.history == Success(h)
    ensures Handle(cfg, input, w)
         == Returns(Collect.Assemble(promptId, [Monitor.ErrorLine(w.frames[0])], h, w.fetch, cfg.refreshWorker))
  {
    assert Monitor.WatchFrames(cfg.settings, promptId, w.dial.channel, w.frames)
        == Monitor.Finished(w.dial.channel, false, [Monitor.ErrorLine(w.frames[0])]);
  }
}

=== FILE: json.dfy ===
/** JSON values as the worker sees them after `json.loads`, with the Python
    behaviours the validators depend on: truthiness, `dict.get`, `in`, and `str()`. */
module Json {
  import opened Wrappers
  import Dict
  import PyText

  /** A JSON document. Numbers are integers; an object is its entries in order. */
  datatype Json =
    | JNull
    | JBool(b: bool)
    | JNum(n: int)
    | JStr(s: string)
    | JArr(items: seq<Json>)
    | JObj(fields: seq<(string, Json)>)

  /** Python truthiness: `None`, `False`, `0`, `""`, `[]` and `{}` are falsy. */
  predicate Truthy(j: Json) {
    match j
    case JNull => false
    case JBool(b) => b
    case JNum(n) => n != 0
    case JStr(s) => |s| > 0
    case JArr(items) => |items| > 0
    case JObj(fields) => |fields| > 0
  }

  /** `obj.get(key)`: the value under `key`, or `None` when the key is absent. */
  function Get(fields: seq<(string, Json)>, key: string): (v: Json)
    ensures !Dict.HasKey(fields, key) ==> v == JNull
    ensures Dict.HasKey(fields, key) ==> Dict.Lookup(fields, key) == Some(v)
  {
    Dict.Lookup(fields, key).GetOr(JNull)
  }

  /** Python's `type(v).__name__`. */
  function TypeName(j: Json): string {
    match j
    case JNull => "NoneType"
    case JBool(_) => "bool"
    case JNum(_) => "int"
    case JStr(_) => "str"
    case JArr(_) => "list"
    case JObj(_) => "dict"
  }

  /** Python's `key in container` for a string `key`; `None` where Python raises TypeError. */
  function PyIn(key: string, container: Json): (r: Option<bool>)
    ensures r.None? <==> container.JNull? || container.JBool? || container.JNum?
    ensures container.JObj? ==> r == Some(Dict.HasKey(container.fields, key))
  {
    match container
    case JObj(fields) => Some(Dict.HasKey(fields, key))
    case JStr(s) => Some(PyText.HasSubstring(s, key))
    case JArr(items) => Some(JStr(key) in items)
    case _ => None
  }

  /** Python's `repr()` of a JSON value (strings in single quotes, without escaping). */
  function Repr(j: Json): string
    decreases j
  {
    match j
    case JNull => "None"
    case JBool(b) => if b then "True" else "False"
    case JNum(n) => PyText.IntToString(n)
    case JStr(s) => "'" + s + "'"
    case JArr(items) =>
      "[" + PyText.Join(", ", seq(|items|, i requires 0 <= i < |items| => Repr(items[i]))) + "]"
    case JObj(fields) =>
      "{" + PyText.Join(", ", seq(|fields|, i requires 0 <= i < |fields| =>
        "'" + fields[i].0 + "': " + Repr(fields[i].1))) + "}"
  }

  /** Python's `str()` of a JSON value, as an f-string interpolates it. */
  function Show(j: Json): (r: string)
    ensures j.JStr? ==> r == j.s
  {
    if j.JStr? then j.s else Repr(j)
  }
}

=== FILE: legacy.dfy ===
/** The earlier worker (`handler-old.py`): a stricter workflow check with a single
    `image`, a single-image upload, history polling, and first-image selection; with
    lemmas that set it against the current worker where the two disagree. */
module Legacy {
  import opened Wrappers
  import opened Json
  import Dict
  import PyText
  import Validation
  import Collect

  /** The ways the earlier validator ends without a job: a rejection it shares with the
      current validator, or one of its own. `Shared(NotAMapping(_))` and `NotIterable`
      are exceptions that escape `validate_input`. */
  datatype LegacyError =
    | Shared(error: Validation.ValidationError)
    | ImageWithoutKeys
    | NotIterable(kind: string)

  function LegacyErrorText(e: LegacyError): string {
    match e
    case Shared(error) => Validation.ErrorText(error)
    case ImageWithoutKeys => "'image' must contain 'name' and 'image' keys"
    case NotIterable(kind) => "argument of type '" + kind + "' is not iterable"
  }

  /** A job the earlier validator accepts: the workflow and the `image` value as given. */
  datatype LegacyJob = LegacyJob(workflow: Json, image: Json)

  /** `"name" not in image or "image" not in image`, evaluated left to right; `None`
      where the `in` test raises. */
  function LacksKeys(image: Json): (r: Option<bool>)
    ensures r.None? <==> PyIn("name", image).None?
    ensures r == Some(false) <==> PyIn("name", image) == Some(true) && PyIn("image", image) == Some(true)
  {
    match PyIn("name", image)
    case None => None
    case Some(hasName) =>
      if !hasName then Some(true)
      else
        match PyIn("image", image)
        case None => None
        case Some(hasImage) => Some(!hasImage)
  }

  function ValidateLegacyObject(fields: seq<(string, Json)>): (r: Result<LegacyJob, LegacyError>)
    // Any falsy workflow is missing, and that check comes first.
    ensures !Truthy(Get(fields, "workflow")) <==> r == Failure(Shared(Validation.MissingWorkflow))
    // A truthy image must answer `in` with both keys.
    ensures r.Success? <==>
              Truthy(Get(fields, "workflow"))
              && (Truthy(Get(fields, "image")) ==> LacksKeys(Get(fields, "image")) == Some(false))
    // A truthy image missing a key is rejected; one that `in` cannot search raises.
    ensures Truthy(Get(fields, "workflow")) && Truthy(Get(fields, "image")) && LacksKeys(Get(fields, "image")) == Some(true) ==>
              r == Failure(ImageWithoutKeys)
    ensures Truthy(Get(fields, "workflow")) && Truthy(Get(fields, "image")) && LacksKeys(Get(fields, "image")).None? ==>
              r == Failure(NotIterable(TypeName(Get(fields, "image"))))
    // The job is the input's two fields, unchanged.
    ensures r.Success? ==> r.value == LegacyJob(Get(fields, "workflow"), Get(fields, "image"))
  {
    var workflow := Get(fields, "workflow");
    var image := Get(fields, "image");
    if !Truthy(workflow) then Failure(Shared(Validation.MissingWorkflow))
    else if !Truthy(image) then Success(LegacyJob(workflow, image))
    else
      match LacksKeys(image)
      case None => Failure(NotIterable(TypeName(image)))
      case Some(lacks) => if lacks then Failure(ImageWithoutKeys) else Success(LegacyJob(workflow, image))
  }

  /** The earlier `validate_input`. */
  function ValidateLegacy(input: Json, parse: string -> Option<Json>): (r: Result<LegacyJob, LegacyError>)
    ensures input.JNull? ==> r == Failure(Shared(Validation.NoInput))
    ensures input.JStr? && parse(input.s).None? ==> r == Failure(Shared(Validation.BadJsonText))
    ensures input.JObj? ==> r == ValidateLegacyObject(input.fields)
    ensures input.JStr? && parse(input.s).Some? && parse(input.s).value.JObj? ==>
              r == ValidateLegacyObject(parse(input.s).value.fields)
    // Any other value, given or parsed, has no `.get`: validation itself raises.
    ensures !input.JNull? && !input.JStr? && !input.JObj? ==>
              r == Failure(Shared(Validation.NotAMapping(TypeName(input))))
    ensures input.JStr? && parse(input.s).Some? && !parse(input.s).value.JObj? ==>
              r == Failure(Shared(Validation.NotAMapping(TypeName(parse(input.s).value))))
  {
    if input.JNull? then Failure(Shared(Validation.NoInput))
    else if input.JStr? then
      match parse(input.s)
      case None => Failure(Shared(Validation.BadJsonText))
      case Some(v) =>
        if v.JObj? then ValidateLegacyObject(v.fields) else Failure(Shared(Validation.NotAMapping(TypeName(v))))
    else if input.JObj? then ValidateLegacyObject(input.fields)
    else Failure(Shared(Validation.NotAMapping(TypeName(input))))
  }

  /** An empty workflow object: the current worker accepts it, the earlier one does not. */
  lemma EmptyWorkflowSplitsValidators(parse: string -> Option<Json>)
    ensures Validation.Validate(JObj([("workflow", JObj([]))]), parse).Success?
    ensures ValidateLegacy(JObj([("workflow", JObj([]))]), parse) == Failure(Shared(Validation.MissingWorkflow))
  {
    Validation.EmptyWorkflowAccepted(parse);
    var fields := [("workflow", JObj([]))];
    assert Get(fields, "workflow") == JObj([]);
  }

  /** A text `image` that mentions both key names passes the earlier validator's `in`
      tests, while the current worker rejects it as a malformed entry. */
  lemma TextImageSplitsValidators(workflow: Json, text: string, parse: string -> Option<Json>)
    requires Truthy(workflow)
    requires PyText.HasSubstring(text, "name") && PyText.HasSubstring(text, "image")
    ensures ValidateLegacy(JObj([("workflow", workflow), ("image", JStr(text))]), parse)
         == Success(LegacyJob(workflow, JStr(text)))
    ensures Validation.Validate(JObj([("workflow", workflow), ("image", JStr(text))]), parse)
         == Failure(Validation.MalformedImage)
  {
    var fields := [("workflow", workflow), ("image", JStr(text))];
    assert fields[0].0 == "workflow" && fields[1].0 == "image";
    assert Get(fields, "workflow") == workflow;
    assert Get(fields, "image") == JStr(text);
    assert !Dict.HasKey(fields, "images");
    assert |text| > 0 by {
      var i :| 0 <= i <= |text| && "name" <= text[i..];
    }
  }

  /** Where the earlier validator accepts an object image, so does the current one, with
      that image as a one-entry list (and no list when the image is falsy). */
  lemma LegacyAcceptanceCarriesOver(fields: seq<(string, Json)>, parse: string -> Option<Json>)
    requires !Truthy(Get(fields, "images"))
    requires ValidateLegacy(JObj(fields), parse).Success?
    requires Truthy(Get(fields, "image")) ==> Get(fields, "image").JObj?
    ensures Validation.Validate(JObj(fields), parse)
         == Success(Validation.Job(Get(fields, "workflow"),
                                   if Truthy(Get(fields, "image")) then Some([Get(fields, "image")]) else None))
  {
  }

  // ---------------------------------------------------------------------------
  // upload_image
  // ---------------------------------------------------------------------------

  /** `base64.b64decode` of the `image` field: accepted, or the exception it raised. */
  datatype Decoding = DecodedOk | DecodeRaised(reason: string)

  /** `POST /upload/image`: the status code and body text, or the exception raised. */
  datatype Answer = Answered(code: int, text: string) | PostRaised(reason: string)

  /** `{"status": ..., "message": ...}` */
  datatype Report = Report(ok: bool, message: string)

  /** Python's message for `image["name"]` on a value that is not an object. */
  function SubscriptError(j: Json): string {
    match j
    case JStr(_) => "string indices must be integers, not 'str'"
    case JArr(_) => "list indices must be integers or slices, not str"
    case _ => "'" + TypeName(j) + "' object is not subscriptable"
  }

  /** The earlier `upload_image`. */
  function UploadLegacy(image: Json, decode: Json -> Decoding, post: Answer): (r: Report)
    ensures !Truthy(image) ==> r == Report(true, "No image to upload")
    // Uploaded exactly when the image names itself, decodes, and the engine answers 200.
    ensures Truthy(image) ==>
              (r.ok <==> image.JObj? && Dict.HasKey(image.fields, "name") && Dict.HasKey(image.fields, "image")
                         && decode(Get(image.fields, "image")).DecodedOk? && post.Answered? && post.code == 200)
    // Any other status is an error naming the file.
    ensures Truthy(image) && image.JObj? && Dict.HasKey(image.fields, "name") && Dict.HasKey(image.fields, "image")
            && decode(Get(image.fields, "image")).DecodedOk? && post.Answered? && post.code != 200 ==>
              !r.ok && PyText.HasSubstring(r.message, Show(Get(image.fields, "name")))
  {
    if !Truthy(image) then Report(true, "No image to upload")
    else if !image.JObj? then Report(false, "Upload failed: " + SubscriptError(image))
    else if !Dict.HasKey(image.fields, "name") then Report(false, "Upload failed: 'name'")
    else if !Dict.HasKey(image.fields, "image") then Report(false, "Upload failed: 'image'")
    else
      var name := Show(Get(image.fields, "name"));
      match decode(Get(image.fields, "image"))
      case DecodeRaised(e) => Report(false, "Upload failed: " + e)
      case DecodedOk =>
        match post
        case PostRaised(e) => Report(false, "Upload failed: " + e)
        case Answered(code, text) =>
          if code != 200 then
            PyText.SubstringOfConcat("Error uploading ", name, ": " + text);
            Report(false, "Error uploading " + name + (": " + text))
          else Report(true, "Successfully uploaded " + name)
  }

  // ---------------------------------------------------------------------------
  // get_history and get_image_from_memory
  // ---------------------------------------------------------------------------

  /** The completion test of the earlier poll: the prompt is in the history and its
      outputs are non-empty. */
  predicate HistoryReady(history: Collect.History, promptId: string) {
    Dict.HasKey(history, promptId) && |Dict.Lookup(history, promptId).value| > 0
  }

  /** The polling loop over the history replies received before the deadline: the outputs
      of the first complete reply, or `None` (the TimeoutError) when none is complete. */
  method PollHistory(polls: seq<Collect.History>, promptId: string)
    returns (outputs: Option<seq<(string, Collect.NodeOutput)>>, used: nat)
    ensures outputs.None? <==> forall k :: 0 <= k < |polls| ==> !HistoryReady(polls[k], promptId)
    ensures outputs.None? ==> used == |polls|
    // It stops at the first complete reply and returns that reply's outputs.
    ensures outputs.Some? ==>
              0 < used <= |polls| && HistoryReady(polls[used - 1], promptId)
              && outputs.value == Dict.Lookup(polls[used - 1], promptId).value
              && |outputs.value| > 0
              && forall k :: 0 <= k < used - 1 ==> !HistoryReady(polls[k], promptId)
  {
    var i := 0;
    while i < |polls|
      invariant i <= |polls|
      invariant forall k :: 0 <= k < i ==> !HistoryReady(polls[k], promptId)
    {
      if HistoryReady(polls[i], promptId) {
        return Some(Dict.Lookup(polls[i], promptId).value), i + 1;
      }
      i := i + 1;
    }
    return None, |polls|;
  }

  /** `GET /view?...`: the status code and the base64 text of the body, or the exception. */
  datatype Viewed = ViewAnswered(code: int, content: string) | ViewRaised(reason: string)

  function ViewUrl(r: Collect.ImageRef): string
    requires r.filename.Some? && r.subfolder.Some?
  {
    "http://127.0.0.1:8188/view?filename=" + r.filename.value + "&subfolder=" + r.subfolder.value
  }

  /** The first node that has an `images` key, in iteration order. */
  function FirstImageNode(outputs: seq<(string, Collect.NodeOutput)>): (r: Option<nat>)
    ensures r.None? <==> forall k :: 0 <= k < |outputs| ==> outputs[k].1.images.None?
    ensures r.Some? ==> r.value < |outputs| && outputs[r.value].1.images.Some?
                        && forall k :: 0 <= k < r.value ==> outputs[k].1.images.None?
  {
    if |outputs| == 0 then None
    else if outputs[0].1.images.Some? then Some(0)
    else
      match FirstImageNode(outputs[1..])
      case None => None
      case Some(k) => Some(k + 1)
  }

  /** The result for the first entry of the chosen node's list. */
  function Retrieve(images: seq<Collect.ImageRef>, view: string -> Viewed): (r: Report)
    // Retrieval succeeds exactly when the first entry names its file and folder and the
    // `/view` request for them answers 200; the report then carries the content.
    ensures r.ok <==> |images| > 0 && images[0].filename.Some? && images[0].subfolder.Some?
                      && view(ViewUrl(images[0])).ViewAnswered? && view(ViewUrl(images[0])).code == 200
    ensures r.ok ==> r.message == view(ViewUrl(images[0])).content
    ensures !r.ok && |images| > 0 && images[0].filename.Some? && images[0].subfolder.Some?
            && view(ViewUrl(images[0])).ViewAnswered? ==>
              r.message == "Failed to retrieve image from " + ViewUrl(images[0])
  {
    if |images| == 0 then Report(false, "Error processing output: list index out of range")
    else if images[0].filename.None? then Report(false, "Error processing output: 'filename'")
    else if images[0].subfolder.None? then Report(false, "Error processing output: 'subfolder'")
    else
      var url := ViewUrl(images[0]);
      match view(url)
      case ViewRaised(e) => Report(false, "Error processing output: " + e)
      case ViewAnswered(code, content) =>
        if code == 200 then Report(true, content) else Report(false, "Failed to retrieve image from " + url)
  }

  /** The earlier `get_image_from_memory`: `None` when no node has images. The S3 upload
      path is not modelled; a retrieved image is returned as base64. */
  function GetImageFromMemory(outputs: seq<(string, Collect.NodeOutput)>, view: string -> Viewed): (r: Option<Report>)
    ensures r.None? <==> forall k :: 0 <= k < |outputs| ==> outputs[k].1.images.None?
    // Only the first entry of the first node with images is ever considered.
    ensures r.Some? ==>
              exists k :: 0 <= k < |outputs| && outputs[k].1.images.Some?
                && (forall j :: 0 <= j < k ==> outputs[j].1.images.None?)
                && r.value == Retrieve(outputs[k].1.images.value, view)
    ensures r.Some? && r.value.ok ==>
              exists k :: 0 <= k < |outputs| && outputs[k].1.images.Some? && |outputs[k].1.images.value| > 0
                && outputs[k].1.images.value[0].filename.Some? && outputs[k].1.images.value[0].subfolder.Some?
                && view(ViewUrl(outputs[k].1.images.value[0])) == ViewAnswered(200, r.value.message)
  {
    match FirstImageNode(outputs)
    case None => None
    case Some(k) => Some(Retrieve(outputs[k].1.images.value, view))
  }

  /** The earlier selection takes a temporary preview when it comes first, which the
      current walk skips. */
  lemma LegacyTakesTempPreview(nodeId: string, preview: Collect.ImageRef, rest: seq<Collect.ImageRef>,
                               view: string -> Viewed, fetch: Collect.Fetch)
    requires preview.kind == Some(Collect.TempKind) && preview.filename.Some? && preview.subfolder.Some?
    requires view(ViewUrl(preview)).ViewAnswered? && view(ViewUrl(preview)).code == 200
    ensures var outputs := [(nodeId, Collect.NodeOutput(Some([preview] + rest), []))];
            GetImageFromMemory(outputs, view) == Some(Report(true, view(ViewUrl(preview)).content))
            && Collect.Verdicts(outputs, fetch)[0] == Collect.Skipped
  {
    var outputs := [(nodeId, Collect.NodeOutput(Some([preview] + rest), []))];
    assert FirstImageNode(outputs) == Some(0);
    assert outputs[1..] == [];
  }
}

=== FILE: monitor.dfy ===
/** The execution monitor: the websocket watch loop of `handler`.
    The loop reads frames until our prompt finishes (an `executing` event with no
    node) or fails (an `execution_error` event); timeouts, binary frames, bad JSON,
    status events and events of other prompts change nothing; a closed channel is
    handed to the reconnection protocol, whose failure ends the job. */
module Monitor {
  import opened Wrappers
  import Reconnect

  /** One outcome of `ws.recv()`, as the loop classifies it. An `Event` is a decoded JSON
      message; `kind` is its `type`, the other fields come from its `data` object, with the
      three error fields as Python's f-string renders them. */
  datatype Frame =
    | RecvTimeout
    | Closed(reason: string, attempts: nat -> Reconnect.Attempt)
    | Binary
    | BadJson
    | Event(kind: Option<string>, node: Option<string>, promptId: Option<string>,
            nodeType: string, nodeId: string, exceptionMessage: string)

  /** Reconnection limits, read once at start-up. */
  datatype Settings = Settings(reconnectAttempts: int, reconnectDelay: int)

  /** `executing` with no node for our prompt: execution has finished. */
  predicate IsCompletion(f: Frame, promptId: string) {
    f.Event? && f.kind == Some("executing") && f.node.None? && f.promptId == Some(promptId)
  }

  /** `execution_error` for our prompt. */
  predicate IsExecutionError(f: Frame, promptId: string) {
    f.Event? && f.kind == Some("execution_error") && f.promptId == Some(promptId)
  }

  /** The error line recorded for an execution error. */
  function ErrorLine(f: Frame): string
    requires f.Event?
  {
    "Workflow execution error: Node Type: " + f.nodeType + ", Node ID: " + f.nodeId
      + ", Message: " + f.exceptionMessage
  }

  /** The reconnection run a closed frame triggers. */
  function ReconnectRun(s: Settings, f: Frame): Reconnect.Run
    requires f.Closed?
  {
    Reconnect.Reconnect(s.reconnectAttempts, s.reconnectDelay, f.reason, f.attempts)
  }

  /** A frame that leaves the loop's state exactly as it was. */
  predicate Inert(f: Frame, promptId: string) {
    !f.Closed? && !IsCompletion(f, promptId) && !IsExecutionError(f, promptId)
  }

  /** A frame after which the loop keeps reading (possibly on a new channel). */
  predicate KeepsWatching(s: Settings, f: Frame, promptId: string) {
    Inert(f, promptId) || (f.Closed? && ReconnectRun(s, f).outcome.Reconnected?)
  }

  /** The channel in use after reading `frames`, all of which kept the loop reading. */
  function ChannelAfter(s: Settings, ch: Reconnect.Channel, frames: seq<Frame>, promptId: string): Reconnect.Channel
    requires forall i :: 0 <= i < |frames| ==> KeepsWatching(s, frames[i], promptId)
  {
    if |frames| == 0 then ch
    else
      var last := frames[|frames| - 1];
      assert KeepsWatching(s, last, promptId);
      if last.Closed? then ReconnectRun(s, last).outcome.channel
      else ChannelAfter(s, ch, frames[..|frames| - 1], promptId)
  }

  /** How the loop ends on a finite stream of frames. */
  datatype Watch =
    | Finished(channel: Reconnect.Channel, executionDone: bool, errors: seq<string>)
    | Lost(failure: Reconnect.Outcome)          // a reconnect failed: the job fails
    | Waiting(channel: Reconnect.Channel)       // no terminal frame yet: the loop would keep reading

  /** The loop, as a function of the frames it reads. */
  function WatchFrames(s: Settings, promptId: string, ch: Reconnect.Channel, frames: seq<Frame>): Watch
    decreases |frames|
  {
    if |frames| == 0 then Waiting(ch)
    else
      var f := frames[0];
      if f.Closed? then
        var run := ReconnectRun(s, f);
        if run.outcome.Reconnected? then WatchFrames(s, promptId, run.outcome.channel, frames[1..])
        else Lost(run.outcome)
      else if IsCompletion(f, promptId) then Finished(ch, true, [])
      else if IsExecutionError(f, promptId) then Finished(ch, false, [ErrorLine(f)])
      else WatchFrames(s, promptId, ch, frames[1..])
  }

  /** How the loop ends, stated against the frames: it stops at the first frame that
      does not keep it reading, and only there, on the channel the reconnects before
      that frame produced; a completion records no error and an execution error exactly
      one line. */
  lemma {:induction false} WatchCharacterised(s: Settings, promptId: string, ch: Reconnect.Channel, frames: seq<Frame>)
    decreases |frames|
    ensures var w := WatchFrames(s, promptId, ch, frames);
            w.Finished? ==>
              exists i :: 0 <= i < |frames| && (IsCompletion(frames[i], promptId) || IsExecutionError(frames[i], promptId))
                && (forall j :: 0 <= j < i ==> KeepsWatching(s, frames[j], promptId))
                && w.channel == ChannelAfter(s, ch, frames[..i], promptId)
                && (w.executionDone <==> IsCompletion(frames[i], promptId))
                && (w.executionDone ==> w.errors == [])
                && (!w.executionDone ==> w.errors == [ErrorLine(frames[i])])
    ensures var w := WatchFrames(s, promptId, ch, frames);
            w.Lost? ==>
              exists i :: 0 <= i < |frames| && frames[i].Closed?
                && (forall j :: 0 <= j < i ==> KeepsWatching(s, frames[j], promptId))
                && w.failure == ReconnectRun(s, frames[i]).outcome && !w.failure.Reconnected?
    ensures var w := WatchFrames(s, promptId, ch, frames);
            w.Waiting? <==> forall j :: 0 <= j < |frames| ==> KeepsWatching(s, frames[j], promptId)
    ensures var w := WatchFrames(s, promptId, ch, frames);
            w.Waiting? ==> w.channel == ChannelAfter(s, ch, frames, promptId)
  {
    if |frames| > 0 {
      var f := frames[0];
      assert frames[..0] == [];
      if f.Closed? {
        var run := ReconnectRun(s, f);
        if run.outcome.Reconnected? {
          WatchCharacterised(s, promptId, run.outcome.channel, frames[1..]);
          ShiftWatching(s, promptId, ch, frames, WatchFrames(s, promptId, run.outcome.channel, frames[1..]));
        }
      } else if !IsCompletion(f, promptId) && !IsExecutionError(f, promptId) {
        WatchCharacterised(s, promptId, ch, frames[1..]);
        ShiftWatching(s, promptId, ch, frames, WatchFrames(s, promptId, ch, frames[1..]));
      }
    }
  }

  /** The channel after a prefix that starts with a kept-reading frame. */
  lemma {:induction false} ChannelAfterShift(s: Settings, promptId: string, ch: Reconnect.Channel, frames: seq<Frame>, i: nat)
    requires i < |frames|
    requires forall j :: 0 <= j < i + 1 ==> KeepsWatching(s, frames[j], promptId)
    ensures ChannelAfter(s, ch, frames[..i + 1], promptId) ==
            ChannelAfter(s, if frames[0].Closed? then ReconnectRun(s, frames[0]).outcome.channel else ch,
                         frames[1..][..i], promptId)
    decreases i
  {
    var ch' := if frames[0].Closed? then ReconnectRun(s, frames[0]).outcome.channel else ch;
    if i == 0 {
      assert frames[..1] == [frames[0]];
      assert frames[..1][..0] == [];
    } else {
      assert frames[..i + 1][..i] == frames[..i];
      assert frames[1..][..i][..i - 1] == frames[1..][..i - 1];
      assert frames[..i + 1][i] == frames[1..][..i][i - 1];
      ChannelAfterShift(s, promptId, ch, frames, i - 1);
    }
  }

  /** Lifts the contract of the recursive call on `frames[1..]` to `frames`. */
  lemma ShiftWatching(s: Settings, promptId: string, ch: Reconnect.Channel, frames: seq<Frame>, w: Watch)
    requires 0 < |frames| && KeepsWatching(s, frames[0], promptId)
    requires var ch' := if frames[0].Closed? then ReconnectRun(s, frames[0]).outcome.channel else ch;
             var rest := frames[1..];
             && (w.Finished? ==>
                   exists i :: 0 <= i < |rest| && (IsCompletion(rest[i], promptId) || IsExecutionError(rest[i], promptId))
                     && (forall j :: 0 <= j < i ==> KeepsWatching(s, rest[j], promptId))
                     && w.channel == ChannelAfter(s, ch', rest[..i], promptId)
                     && (w.executionDone <==> IsCompletion(rest[i], promptId))
                     && (w.executionDone ==> w.errors == [])
                     && (!w.executionDone ==> w.errors == [ErrorLine(rest[i])]))
             && (w.Lost? ==>
                   exists i :: 0 <= i < |rest| && rest[i].Closed?
                     && (forall j :: 0 <= j < i ==> KeepsWatching(s, rest[j], promptId))
                     && w.failure == ReconnectRun(s, rest[i]).outcome && !w.failure.Reconnected?)
             && (w.Waiting? <==> forall j :: 0 <= j < |rest| ==> KeepsWatching(s, rest[j], promptId))
             && (w.Waiting? ==> w.channel == ChannelAfter(s, ch', rest, promptId))
    ensures w.Finished? ==>
              exists i :: 0 <= i < |frames| && (IsCompletion(frames[i], promptId) || IsExecutionError(frames[i], promptId))
                && (forall j :: 0 <= j < i ==> KeepsWatching(s, frames[j], promptId))
                && w.channel == ChannelAfter(s, ch, frames[..i], promptId)
                && (w.executionDone <==> IsCompletion(frames[i], promptId))
                && (w.executionDone ==> w.errors == [])
                && (!w.executionDone ==> w.errors == [ErrorLine(frames[i])])
    ensures w.Lost? ==>
              exists i :: 0 <= i < |frames| && frames[i].Closed?
                && (forall j :: 0 <= j < i ==> KeepsWatching(s, frames[j], promptId))
                && w.failure == ReconnectRun(s, frames[i]).outcome && !w.failure.Reconnected?
    ensures w.Waiting? <==> forall j :: 0 <= j < |frames| ==> KeepsWatching(s, frames[j], promptId)
    ensures w.Waiting? ==> w.channel == ChannelAfter(s, ch, frames, promptId)
  {
    var rest := frames[1..];
    var ch' := if frames[0].Closed? then ReconnectRun(s, frames[0]).outcome.channel else ch;
    if w.Finished? {
      var i :| 0 <= i < |rest| && (IsCompletion(rest[i], promptId) || IsExecutionError(rest[i], promptId))
                     && (forall j :: 0 <= j < i ==> KeepsWatching(s, rest[j], promptId))
                     && w.channel == ChannelAfter(s, ch', rest[..i], promptId)
                     && (w.executionDone <==> IsCompletion(rest[i], promptId))
                     && (w.executionDone ==> w.errors == [])
                     && (!w.executionDone ==> w.errors == [ErrorLine(rest[i])]);
      assert rest[i] == frames[i + 1];
      ChannelAfterShift(s, promptId, ch, frames, i);
    }
    if w.Lost? {
      var i :| 0 <= i < |rest| && rest[i].Closed?
                     && (forall j :: 0 <= j < i ==> KeepsWatching(s, rest[j], promptId))
                     && w.failure == ReconnectRun(s, rest[i]).outcome && !w.failure.Reconnected?;
      assert rest[i] == frames[i + 1];
    }
    if w.Waiting? {
      assert frames == frames[..|rest| + 1];
      assert rest == rest[..|rest|];
      ChannelAfterShift(s, promptId, ch, frames, |rest|);
    }
  }

  /** A lost watch always carries a failed reconnect. */
  lemma LostMeansReconnectFailed(s: Settings, promptId: string, ch: Reconnect.Channel, frames: seq<Frame>)
    ensures WatchFrames(s, promptId, ch, frames).Lost? ==> !WatchFrames(s, promptId, ch, frames).failure.Reconnected?
  {
    WatchCharacterised(s, promptId, ch, frames);
  }

  /** The loop as the worker writes it: `ws`, `execution_done` and `errors` are updated
      frame by frame and the loop breaks on a terminal event; a failed reconnect leaves
      the loop by raising. It computes exactly `WatchFrames`. */
  method MonitorLoop(s: Settings, promptId: string, ch: Reconnect.Channel, frames: seq<Frame>) returns (w: Watch)
    ensures w == WatchFrames(s, promptId, ch, frames)
    ensures w.Finished? ==> w.executionDone || |w.errors| > 0
  {
    var ws := ch;
    var executionDone := false;
    var errors: seq<string> := [];
    var i := 0;
    while i < |frames|
      invariant 0 <= i <= |frames|
      invariant !executionDone && errors == []
      invariant WatchFrames(s, promptId, ch, frames) == WatchFrames(s, promptId, ws, frames[i..])
    {
      assert frames[i..][1..] == frames[i + 1..];
      var f := frames[i];
      match f {
        case RecvTimeout =>
        case Binary =>
        case BadJson =>
        case Closed(_, _) =>
          var run := ReconnectRun(s, f);
          if !run.outcome.Reconnected? {
            return Lost(run.outcome);
          }
          ws := run.outcome.channel;
        case Event(kind, node, p, _, _, _) =>
          if kind == Some("executing") {
            if node.None? && p == Some(promptId) {
              executionDone := true;
              break;
            }
          } else if kind == Some("execution_error") {
            if p == Some(promptId) {
              errors := errors + [ErrorLine(f)];
              break;
            }
          }
      }
      i := i + 1;
    }
    if i == |frames| {
      return Waiting(ws);
    }
    return Finished(ws, executionDone, errors);
  }

  /** The defensive check after the loop: leaving it without completion and without an
      error is a protocol violation. */
  function PostLoopCheck(executionDone: bool, errors: seq<string>): (r: Option<string>)
    ensures r.Some? <==> !executionDone && |errors| == 0
  {
    if !executionDone && |errors| == 0 then
      Some("Workflow monitoring loop exited without confirmation of completion or error.")
    else None
  }

  /** The protocol-violation branch after the loop can never be taken. */
  lemma PostLoopCheckUnreachable(s: Settings, promptId: string, ch: Reconnect.Channel, frames: seq<Frame>)
    ensures var w := WatchFrames(s, promptId, ch, frames);
            w.Finished? ==> PostLoopCheck(w.executionDone, w.errors).None?
  {
    WatchCharacterised(s, promptId, ch, frames);
  }

  /** Inert frames (timeouts, binary frames, bad JSON, status events, other prompts'
      events) can be dropped from the stream without changing how the loop ends. */
  lemma {:induction false} InertFramesInvisible(s: Settings, promptId: string, ch: Reconnect.Channel,
                                                 noise: seq<Frame>, rest: seq<Frame>)
    requires forall j :: 0 <= j < |noise| ==> Inert(noise[j], promptId)
    ensures WatchFrames(s, promptId, ch, noise + rest) == WatchFrames(s, promptId, ch, rest)
    decreases |noise|
  {
    if |noise| == 0 {
      assert noise + rest == rest;
    } else {
      assert (noise + rest)[1..] == noise[1..] + rest;
      assert Inert(noise[0], promptId);
      DropInertFrame(s, promptId, ch, noise + rest);
      InertFramesInvisible(s, promptId, ch, noise[1..], rest);
    }
  }

  /** One step of the loop over an inert frame. */
  lemma DropInertFrame(s: Settings, promptId: string, ch: Reconnect.Channel, frames: seq<Frame>)
    requires 0 < |frames| && Inert(frames[0], promptId)
    ensures WatchFrames(s, promptId, ch, frames) == WatchFrames(s, promptId, ch, frames[1..])
  {
  }

  /** After inert frames, a channel drop that reconnects resumes the watch on the new
      channel: the job then ends exactly as the remaining frames on that channel say. */
  lemma ResumesAfterReconnect(s: Settings, promptId: string, ch: Reconnect.Channel,
                              noise: seq<Frame>, drop: Frame, rest: seq<Frame>)
    requires forall j :: 0 <= j < |noise| ==> Inert(noise[j], promptId)
    requires drop.Closed? && ReconnectRun(s, drop).outcome.Reconnected?
    ensures WatchFrames(s, promptId, ch, noise + [drop] + rest)
         == WatchFrames(s, promptId, ReconnectRun(s, drop).outcome.channel, rest)
  {
    assert noise + [drop] + rest == noise + ([drop] + rest);
    InertFramesInvisible(s, promptId, ch, noise, [drop] + rest);
    assert ([drop] + rest)[1..] == rest;
  }

  /** After inert frames, a channel drop whose reconnect fails loses the job, whatever
      follows. */
  lemma FailedReconnectLosesJob(s: Settings, promptId: string, ch: Reconnect.Channel,
                                noise: seq<Frame>, drop: Frame, rest: seq<Frame>)
    requires forall j :: 0 <= j < |noise| ==> Inert(noise[j], promptId)
    requires drop.Closed? && !ReconnectRun(s, drop).outcome.Reconnected?
    ensures WatchFrames(s, promptId, ch, noise + [drop] + rest) == Lost(ReconnectRun(s, drop).outcome)
  {
    assert noise + [drop] + rest == noise + ([drop] + rest);
    InertFramesInvisible(s, promptId, ch, noise, [drop] + rest);
  }
}

=== FILE: pytext.dfy ===
/** The few Python string operations the worker relies on. */
module PyText {

  /** Python's `sub in s` on strings. */
  predicate HasSubstring(s: string, sub: string) {
    exists i :: 0 <= i <= |s| && sub <= s[i..]
  }

  /** A string placed between two others is a substring of the whole. */
  lemma SubstringOfConcat(a: string, b: string, c: string)
    ensures HasSubstring(a + b + c, b)
  {
    assert b <= (a + b + c)[|a|..];
  }

  /** Python's `sep.join(parts)`. */
  function Join(sep: string, parts: seq<string>): string {
    if |parts| == 0 then ""
    else if |parts| == 1 then parts[0]
    else parts[0] + sep + Join(sep, parts[1..])
  }

  function DigitChar(d: nat): char
    requires d < 10
  {
    "0123456789"[d]
  }

  /** Python's `str(n)` for a non-negative integer. */
  function NatToString(n: nat): (r: string)
    ensures |r| > 0
  {
    if n < 10 then [DigitChar(n)] else NatToString(n / 10) + [DigitChar(n % 10)]
  }

  /** Python's `str(n)` for an integer. */
  function IntToString(n: int): string {
    if n < 0 then "-" + NatToString(-n) else NatToString(n)
  }
}

=== FILE: reconnect.dfy ===
/** The websocket reconnection sub-protocol (`_attempt_websocket_reconnect`).
    Each attempt first probes the engine's HTTP root; an unreachable engine aborts
    at once. Otherwise a fresh channel is dialled; a failed dial is followed by a
    pause only when another attempt remains. Exhausting the attempts fails with
    the last dial error, or the error that closed the channel if no attempt ran. */
module Reconnect {

  /** A push-notification channel handle. */
  datatype Channel = Channel(id: nat)

  /** The HTTP reachability probe (`_comfy_server_status`): a status code or an exception. */
  datatype Probe = HttpStatus(code: int) | ProbeError(reason: string) {
    predicate Reachable() {
      HttpStatus? && code == 200
    }
  }

  /** The result of dialling a fresh websocket. */
  datatype Dial = Connected(channel: Channel) | DialError(reason: string)

  /** What the world answers to one reconnect attempt. */
  datatype Attempt = Attempt(probe: Probe, dial: Dial)

  /** The externally visible actions of the protocol, in order. */
  datatype Action = Probed(reachable: bool) | Dialled(ok: bool) | Slept(seconds: int)

  datatype Outcome =
    | Reconnected(channel: Channel)
    | EngineDown                   // the probe found the engine unreachable
    | GaveUp(lastError: string)    // every attempt failed to dial

  datatype Run = Run(outcome: Outcome, actions: seq<Action>)

  /** `range(max_attempts)` runs no attempt at all for a negative bound. */
  function AttemptCount(maxAttempts: int): nat {
    if maxAttempts < 0 then 0 else maxAttempts
  }

  /** The message of the WebSocketConnectionClosedException a failed reconnect raises. */
  function FailureText(o: Outcome): string
    requires !o.Reconnected?
  {
    match o
    case EngineDown => "ComfyUI HTTP unreachable during websocket reconnect"
    case GaveUp(e) => "Connection closed and failed to reconnect. Last error: " + e
  }

  /** Attempt `m` found the engine up but could not dial. */
  predicate DialFailed(attempts: nat -> Attempt, m: nat) {
    attempts(m).probe.Reachable() && attempts(m).dial.DialError?
  }

  /** Every attempt in `[lo, hi)` found the engine up but could not dial. */
  predicate AllDialsFailed(attempts: nat -> Attempt, lo: nat, hi: nat) {
    forall m: nat :: lo <= m < hi ==> DialFailed(attempts, m)
  }

  function Probes(actions: seq<Action>): nat {
    if |actions| == 0 then 0 else (if actions[0].Probed? then 1 else 0) + Probes(actions[1..])
  }

  function Dials(actions: seq<Action>): nat {
    if |actions| == 0 then 0 else (if actions[0].Dialled? then 1 else 0) + Dials(actions[1..])
  }

  /** Every dial comes straight after a successful probe, and every pause lasts `delay`
      seconds and sits between a failed dial and the next attempt's probe. */
  predicate WellPaced(actions: seq<Action>, delay: int) {
    && (forall i :: 0 <= i < |actions| && actions[i].Dialled? ==> 0 < i && actions[i - 1] == Probed(true))
    && (forall i :: 0 <= i < |actions| && actions[i].Slept? ==>
          && 0 < i && i + 1 < |actions|
          && actions[i - 1] == Dialled(false)
          && actions[i + 1].Probed?
          && actions[i].seconds == delay)
  }

  lemma CountsAppend(a: seq<Action>, b: seq<Action>)
    ensures Probes(a + b) == Probes(a) + Probes(b)
    ensures Dials(a + b) == Dials(a) + Dials(b)
  {
    if |a| == 0 {
      assert a + b == b;
    } else {
      assert (a + b)[1..] == a[1..] + b;
      CountsAppend(a[1..], b);
    }
  }

  /** The actions of one failed attempt: probe, dial, and possibly a pause. */
  lemma FailedAttemptCounts(pause: seq<Action>)
    requires pause == [] || (|pause| == 1 && pause[0].Slept?)
    ensures Probes([Probed(true), Dialled(false)] + pause) == 1
    ensures Dials([Probed(true), Dialled(false)] + pause) == 1
  {
    var h := [Probed(true), Dialled(false)] + pause;
    if |pause| == 1 {
      assert pause[1..] == [];
    }
    assert Probes(pause) == 0 && Dials(pause) == 0;
    assert h[1..] == [Dialled(false)] + pause;
    assert h[1..][1..] == pause;
    assert Probes(h[1..]) == 0 && Dials(h[1..]) == 1;
  }

  /** Prefixing one failed attempt keeps the action trace well paced, provided a pause
      is only added when a further attempt (starting with a probe) follows. */
  lemma FailedAttemptPaced(pause: seq<Action>, rest: seq<Action>, delay: int)
    requires pause == [] || pause == [Slept(delay)]
    requires pause != [] ==> |rest| > 0 && rest[0].Probed?
    requires WellPaced(rest, delay)
    ensures WellPaced([Probed(true), Dialled(false)] + pause + rest, delay)
  {
    var head := [Probed(true), Dialled(false)] + pause;
    var all := head + rest;
    assert forall i :: |head| <= i < |all| ==> all[i] == rest[i - |head|];
  }

  /** A failed dial at attempt `k` extends a run of failed dials starting at `k + 1`. */
  lemma FailedDialExtends(attempts: nat -> Attempt, k: nat)
    requires DialFailed(attempts, k)
    ensures forall j: nat :: k + 1 <= j && AllDialsFailed(attempts, k + 1, j) ==> AllDialsFailed(attempts, k, j)
  {
  }

  /** The protocol from attempt `k` of `n`, where `lastError` is the latest failure seen. */
  function RunFrom(k: nat, n: nat, delay: int, lastError: string, attempts: nat -> Attempt): (r: Run)
    requires k <= n
    decreases n - k
    // Bounded: at most one dial per remaining attempt, and one probe per dial
    // (plus the probe that found the engine down).
    ensures Dials(r.actions) <= n - k
    ensures Probes(r.actions) == Dials(r.actions) + (if r.outcome.EngineDown? then 1 else 0)
    ensures WellPaced(r.actions, delay)
    ensures k < n ==> |r.actions| > 0 && r.actions[0].Probed?
    // The first attempt that does not fail to dial decides the outcome.
    ensures r.outcome.Reconnected? ==>
              exists j: nat :: k <= j < n && AllDialsFailed(attempts, k, j)
                && attempts(j).probe.Reachable() && attempts(j).dial == Connected(r.outcome.channel)
    ensures r.outcome.EngineDown? ==>
              exists j: nat :: k <= j < n && AllDialsFailed(attempts, k, j) && !attempts(j).probe.Reachable()
    ensures r.outcome.GaveUp? ==> AllDialsFailed(attempts, k, n)
    ensures r.outcome.GaveUp? && k == n ==> r.outcome.lastError == lastError
    ensures r.outcome.GaveUp? && k < n ==> attempts(n - 1).dial == DialError(r.outcome.lastError)
    ensures r.outcome.EngineDown? ==> |r.actions| > 0 && r.actions[|r.actions| - 1] == Probed(false)
  {
    if k == n then Run(GaveUp(lastError), [])
    else
      var a := attempts(k);
      if !a.probe.Reachable() then
        assert AllDialsFailed(attempts, k, k);
        Run(EngineDown, [Probed(false)])
      else
        match a.dial
        case Connected(ch) =>
          assert AllDialsFailed(attempts, k, k);
          Run(Reconnected(ch), [Probed(true), Dialled(true)])
        case DialError(e) =>
          var rest := RunFrom(k + 1, n, delay, e, attempts);
          var pause := if k < n - 1 then [Slept(delay)] else [];
          var head := [Probed(true), Dialled(false)] + pause;
          CountsAppend(head, rest.actions);
          FailedAttemptCounts(pause);
          FailedAttemptPaced(pause, rest.actions, delay);
          FailedDialExtends(attempts, k);
          Run(rest.outcome, head + rest.actions)
  }

  /** `_attempt_websocket_reconnect(ws_url, maxAttempts, delay, initialError)`. */
  function Reconnect(maxAttempts: int, delay: int, initialError: string, attempts: nat -> Attempt): (r: Run)
    ensures Dials(r.actions) <= AttemptCount(maxAttempts)
    ensures Probes(r.actions) == Dials(r.actions) + (if r.outcome.EngineDown? then 1 else 0)
    ensures WellPaced(r.actions, delay)
    ensures r.outcome.Reconnected? ==>
              exists j: nat :: j < AttemptCount(maxAttempts) && AllDialsFailed(attempts, 0, j)
                && attempts(j).probe.Reachable() && attempts(j).dial == Connected(r.outcome.channel)
    ensures r.outcome.EngineDown? ==>
              exists j: nat :: j < AttemptCount(maxAttempts) && AllDialsFailed(attempts, 0, j)
                && !attempts(j).probe.Reachable()
    ensures r.outcome.GaveUp? ==> AllDialsFailed(attempts, 0, AttemptCount(maxAttempts))
    ensures r.outcome.GaveUp? && AttemptCount(maxAttempts) == 0 ==> r.outcome.lastError == initialError
    ensures r.outcome.GaveUp? && AttemptCount(maxAttempts) > 0 ==>
              attempts(AttemptCount(maxAttempts) - 1).dial == DialError(r.outcome.lastError)
    ensures r.outcome.EngineDown? ==> r.actions[|r.actions| - 1] == Probed(false)
  {
    RunFrom(0, AttemptCount(maxAttempts), delay, initialError, attempts)
  }

  /** Fail fast: an engine that is down at the first probe is never dialled. */
  lemma UnreachableAbortsWithoutDialling(maxAttempts: int, delay: int, initialError: string, attempts: nat -> Attempt)
    requires maxAttempts > 0 && !attempts(0).probe.Reachable()
    ensures Reconnect(maxAttempts, delay, initialError, attempts) == Run(EngineDown, [Probed(false)])
  {
  }

  /** With the engine reachable throughout and every dial failing, the protocol gives up
      (the channel is lost), rather than reporting the engine down. */
  lemma ReachableButNeverConnectedGivesUp(maxAttempts: int, delay: int, initialError: string, attempts: nat -> Attempt)
    requires AllDialsFailed(attempts, 0, AttemptCount(maxAttempts))
    ensures Reconnect(maxAttempts, delay, initialError, attempts).outcome.GaveUp?
    ensures Dials(Reconnect(maxAttempts, delay, initialError, attempts).actions) == AttemptCount(maxAttempts)
  {
    var n := AttemptCount(maxAttempts);
    AllFailedRunsGiveUp(0, n, delay, initialError, attempts);
  }

  lemma {:induction false} AllFailedRunsGiveUp(k: nat, n: nat, delay: int, lastError: string, attempts: nat -> Attempt)
    requires k <= n && AllDialsFailed(attempts, k, n)
    ensures RunFrom(k, n, delay, lastError, attempts).outcome.GaveUp?
    ensures Dials(RunFrom(k, n, delay, lastError, attempts).actions) == n - k
    decreases n - k
  {
    if k < n {
      assert DialFailed(attempts, k);
      var e := attempts(k).dial.reason;
      AllFailedRunsGiveUp(k + 1, n, delay, e, attempts);
      var rest := RunFrom(k + 1, n, delay, e, attempts);
      var pause := if k < n - 1 then [Slept(delay)] else [];
      var head := [Probed(true), Dialled(false)] + pause;
      CountsAppend(head, rest.actions);
      FailedAttemptCounts(pause);
    }
  }
}

=== FILE: submit.dfy ===
/** Workflow submission (`queue_workflow`) and its HTTP 400 error-message builder,
    with the checkpoint list taken from the engine's `/object_info` document
    (`get_available_models`). */
module Submit {
  import opened Wrappers
  import opened Json
  import Dict
  import PyText

  /** The top-level `error` entry of a 400 body: an object with optional `message` and
      `type`, or any other value as `str()` renders it. */
  datatype ErrorInfo = InfoDict(message: Option<string>, kind: Option<string>) | InfoOther(shown: string)

  /** One entry of `node_errors`: an object of `error_type: message` pairs in order, or any
      other value as `str()` renders it. */
  datatype NodeError = NodeDict(entries: seq<(string, string)>) | NodeOther(shown: string)

  /** A parsed 400 body: `error`, `node_errors`, and the top-level `type` and `message`. */
  datatype ErrorBody = ErrorBody(error: Option<ErrorInfo>, nodeErrors: Option<seq<(string, NodeError)>>,
                                 kind: Option<string>, message: Option<string>)

  const FailedValidation := "prompt_outputs_failed_validation"
  const DefaultMessage := "Workflow validation failed"
  const ModelHint := "\n\nThis usually means a required model or parameter is not available."
  const NoCheckpoints := "No checkpoint models appear to be available. Please check your model installation."

  /** The message taken from the `error` entry, before node details are added. */
  function BaseMessage(error: Option<ErrorInfo>): (m: string)
    // The default stands unless the `error` entry supplies its own text; a dictionary
    // whose type is a failed validation never does.
    ensures m != DefaultMessage ==>
              error.Some? && (error.value.InfoOther? ==> m == error.value.shown)
              && (error.value.InfoDict? ==> error.value.kind != Some(FailedValidation) && error.value.message == Some(m))
    ensures error.None? || (error.value.InfoDict? && error.value.kind == Some(FailedValidation)) ==> m == DefaultMessage
    ensures error.Some? && error.value.InfoOther? ==> m == error.value.shown
    ensures error.Some? && error.value.InfoDict? && error.value.kind != Some(FailedValidation) ==>
              m == error.value.message.GetOr(DefaultMessage)
  {
    match error
    case None => DefaultMessage
    case Some(InfoOther(shown)) => shown
    case Some(InfoDict(m, k)) => if k == Some(FailedValidation) then DefaultMessage else m.GetOr(DefaultMessage)
  }

  /** The detail lines one node error contributes. */
  function NodeLines(id: string, e: NodeError): (lines: seq<string>)
    ensures e.NodeOther? ==> lines == ["Node " + id + ": " + e.shown]
    ensures e.NodeDict? ==> |lines| == |e.entries|
    ensures e.NodeDict? ==>
              forall k :: 0 <= k < |lines| ==>
                lines[k] == "Node " + id + " (" + e.entries[k].0 + "): " + e.entries[k].1
  {
    match e
    case NodeOther(shown) => ["Node " + id + ": " + shown]
    case NodeDict(entries) =>
      seq(|entries|, k requires 0 <= k < |entries| => "Node " + id + " (" + entries[k].0 + "): " + entries[k].1)
  }

  /** All detail lines of `node_errors`, node by node in document order. */
  function NodeDetails(nodes: seq<(string, NodeError)>): seq<string> {
    if |nodes| == 0 then [] else NodeLines(nodes[0].0, nodes[0].1) + NodeDetails(nodes[1..])
  }

  /** Detail lines keep the order of the nodes: those of earlier nodes come first. */
  lemma {:induction false} NodeDetailsAppend(a: seq<(string, NodeError)>, b: seq<(string, NodeError)>)
    ensures NodeDetails(a + b) == NodeDetails(a) + NodeDetails(b)
    ensures NodeDetails([]) == []
  {
    if |a| == 0 {
      assert a + b == b;
    } else {
      assert (a + b)[1..] == a[1..] + b;
      NodeDetailsAppend(a[1..], b);
    }
  }

  /** A detail that names a checkpoint choice the engine refused. */
  predicate RefusedCheckpoint(detail: string) {
    PyText.HasSubstring(detail, "not in list") && PyText.HasSubstring(detail, "ckpt_name")
  }

  /** `obj[key]` along the introspection path. A non-object at any step ends extraction
      with no checkpoints: either the `in` test fails, or the subscript raises and the
      catch-all handler returns `{}`. */
  function Member(j: Json, key: string): (r: Option<Json>)
    ensures r.Some? <==> j.JObj? && Dict.HasKey(j.fields, key)
  {
    if j.JObj? then Dict.Lookup(j.fields, key) else None
  }

  /** `get_available_models()["checkpoints"]`, with `None` for an empty result dictionary;
      `objectInfo` is `None` when the request or its JSON decoding failed. */
  function AvailableCheckpoints(objectInfo: Option<Json>): (r: Option<seq<Json>>)
    ensures objectInfo.None? ==> r.None?
    ensures r.Some? ==> Member(objectInfo.value, "CheckpointLoaderSimple").Some?
  {
    if objectInfo.None? then None
    else
      match Member(objectInfo.value, "CheckpointLoaderSimple")
      case None => None
      case Some(loader) =>
        match Member(loader, "input")
        case None => None
        case Some(input) =>
          match Member(input, "required")
          case None => None
          case Some(required) =>
            if !required.JObj? then None  // `.get` on a non-object raises
            else
              var options := Get(required.fields, "ckpt_name");
              if !Truthy(options) then None
              else
                match options
                case JArr(items) => if items[0].JArr? then Some(items[0].items) else Some([])
                case JStr(_) => Some([])   // the first character is a string, not a list
                case _ => None             // `len()` or `[0]` raises
  }

  /** The `/object_info` document the engine serves for a checkpoint loader offering `names`. */
  function ObjectInfoOffering(names: seq<Json>, rest: seq<(string, Json)>): Json {
    JObj([("CheckpointLoaderSimple",
           JObj([("input", JObj([("required", JObj([("ckpt_name", JArr([JArr(names), JObj(rest)]))]))]))]))])
  }

  /** Extraction recovers exactly the offered names. */
  lemma CheckpointsRoundTrip(names: seq<Json>, rest: seq<(string, Json)>)
    ensures AvailableCheckpoints(Some(ObjectInfoOffering(names, rest))) == Some(names)
  {
    var ckpt := [("ckpt_name", JArr([JArr(names), JObj(rest)]))];
    assert Dict.Lookup(ckpt, "ckpt_name") == Some(JArr([JArr(names), JObj(rest)]));
    var required := [("required", JObj(ckpt))];
    assert Dict.Lookup(required, "required") == Some(JObj(ckpt));
    var input := [("input", JObj(required))];
    assert Dict.Lookup(input, "input") == Some(JObj(required));
    var top := [("CheckpointLoaderSimple", JObj(input))];
    assert Dict.Lookup(top, "CheckpointLoaderSimple") == Some(JObj(input));
  }

  /** The first entry that is not a string, if any. */
  function FirstNonString(names: seq<Json>): (r: Option<nat>)
    ensures r.None? <==> forall k :: 0 <= k < |names| ==> names[k].JStr?
    ensures r.Some? ==> r.value < |names| && !names[r.value].JStr?
                        && forall k :: 0 <= k < r.value ==> names[k].JStr?
  {
    if |names| == 0 then None
    else if !names[0].JStr? then Some(0)
    else
      match FirstNonString(names[1..])
      case None => None
      case Some(k) => Some(k + 1)
  }

  /** `', '.join(names)`: fails with Python's TypeError message on the first non-string. */
  function JoinNames(names: seq<Json>): (r: Result<string, string>)
    ensures r.Success? <==> forall k :: 0 <= k < |names| ==> names[k].JStr?
    ensures r.Success? ==> r.value == PyText.Join(", ", seq(|names|, k requires 0 <= k < |names| => names[k].s))
  {
    match FirstNonString(names)
    case Some(k) =>
      Failure("sequence item " + PyText.NatToString(k) + ": expected str instance, " + TypeName(names[k]) + " found")
    case None => Success(PyText.Join(", ", seq(|names|, k requires 0 <= k < |names| => names[k].s)))
  }

  /** The checkpoint sentence, after `separator`: the names if any are listed, or a
      note that none are. */
  function ModelsLine(separator: string, objectInfo: Option<Json>): (r: Result<string, string>)
    // No listed checkpoint: the note that none appear to be available.
    ensures !Listed(objectInfo) ==> r == Success(separator + NoCheckpoints)
    // Listed checkpoints: the line fails exactly when one is not a string, and names every one.
    ensures Listed(objectInfo) ==>
              (r.Success? <==> forall k :: 0 <= k < |AvailableCheckpoints(objectInfo).value| ==>
                                          AvailableCheckpoints(objectInfo).value[k].JStr?)
    ensures Listed(objectInfo) && r.Success? ==>
              r.value == separator + "Available checkpoint models: " + JoinNames(AvailableCheckpoints(objectInfo).value).value
    ensures Listed(objectInfo) && r.Success? ==>
              (separator + "Available checkpoint models: ") <= r.value
              && forall k :: 0 <= k < |AvailableCheckpoints(objectInfo).value| ==>
                   PyText.HasSubstring(r.value, AvailableCheckpoints(objectInfo).value[k].s)
  {
    var checkpoints := AvailableCheckpoints(objectInfo);
    if Listed(objectInfo) then
      match JoinNames(checkpoints.value)
      case Success(joined) =>
        var names := checkpoints.value;
        var parts := seq(|names|, k requires 0 <= k < |names| => names[k].s);
        var head := separator + "Available checkpoint models: ";
        assert forall k :: 0 <= k < |names| ==> PyText.HasSubstring(head + joined, names[k].s) by {
          forall k | 0 <= k < |names|
            ensures PyText.HasSubstring(head + joined, names[k].s)
          {
            JoinMentionsEachPart(", ", parts, k);
            SubstringWiden(head, joined, "", parts[k]);
            assert head + joined + "" == head + joined;
          }
        }
        Success(head + joined)
      case Failure(e) => Failure(e)
    else Success(separator + NoCheckpoints)
  }

  /** `available_models.get("checkpoints")` is truthy: a non-empty list was extracted. */
  predicate Listed(objectInfo: Option<Json>) {
    AvailableCheckpoints(objectInfo).Some? && |AvailableCheckpoints(objectInfo).value| > 0
  }

  function Bullets(details: seq<string>): string {
    PyText.Join("\n", seq(|details|, k requires 0 <= k < |details| => "\U{2022} " + details[k]))
  }

  lemma {:induction false} JoinMentionsEachPart(sep: string, parts: seq<string>, k: nat)
    requires k < |parts|
    ensures PyText.HasSubstring(PyText.Join(sep, parts), parts[k])
    decreases |parts|
  {
    if |parts| == 1 {
      PyText.SubstringOfConcat("", parts[0], "");
      assert "" + parts[0] + "" == parts[0];
    } else if k == 0 {
      PyText.SubstringOfConcat("", parts[0], sep + PyText.Join(sep, parts[1..]));
      assert "" + parts[0] + (sep + PyText.Join(sep, parts[1..])) == PyText.Join(sep, parts);
    } else {
      JoinMentionsEachPart(sep, parts[1..], k - 1);
      var tail := PyText.Join(sep, parts[1..]);
      var i :| 0 <= i <= |tail| && parts[k] <= tail[i..];
      var whole := PyText.Join(sep, parts);
      assert whole == (parts[0] + sep) + tail;
      assert whole[|parts[0] + sep| + i..] == tail[i..];
    }
  }

  lemma SubstringWiden(s: string, t: string, u: string, sub: string)
    requires PyText.HasSubstring(t, sub)
    ensures PyText.HasSubstring(s + t + u, sub)
  {
    var i :| 0 <= i <= |t| && sub <= t[i..];
    var whole := s + t + u;
    assert whole[|s| + i..] == t[i..] + u;
  }

  /** Every detail line appears in the bulleted listing. */
  lemma BulletsMentionEachDetail(details: seq<string>, k: nat)
    requires k < |details|
    ensures PyText.HasSubstring(Bullets(details), details[k])
  {
    var parts := seq(|details|, j requires 0 <= j < |details| => "\U{2022} " + details[j]);
    JoinMentionsEachPart("\n", parts, k);
    var i :| 0 <= i <= |Bullets(details)| && parts[k] <= Bullets(details)[i..];
    assert details[k] <= Bullets(details)[i + 2..];
  }

  /** The outcome of the 400 branch: the text of the ValueError raised (or, as a failure,
      the TypeError text of a checkpoint list that does not join), and whether the
      engine's model list was consulted. */
  datatype Rejection = Rejection(text: Result<string, string>, introspected: bool)

  function Details(body: ErrorBody): seq<string> {
    if body.nodeErrors.Some? then NodeDetails(body.nodeErrors.value) else []
  }

  /** Every detail appears in the listing `base:\n• d1\n• d2...`. */
  lemma ListingMentionsEachDetail(base: string, details: seq<string>, tail: string, k: nat)
    requires k < |details|
    ensures PyText.HasSubstring(base + ":\n" + Bullets(details) + tail, details[k])
  {
    BulletsMentionEachDetail(details, k);
    SubstringWiden(base + ":\n", Bullets(details), tail, details[k]);
  }

  /** The 400 message when node details exist and the type is not a failed validation. */
  function ListingRejection(base: string, details: seq<string>, objectInfo: Option<Json>): (r: Rejection)
    requires |details| > 0
    ensures r.introspected <==> exists k :: 0 <= k < |details| && RefusedCheckpoint(details[k])
    ensures r.text.Failure? ==> r.introspected
    ensures r.text.Success? ==> (base + ":\n" + Bullets(details)) <= r.text.value
    ensures r.text.Success? ==>
              forall k :: 0 <= k < |details| ==> PyText.HasSubstring(r.text.value, details[k])
    // Nothing follows the listing unless a detail names a refused checkpoint choice.
    ensures !r.introspected ==> r.text == Success(base + ":\n" + Bullets(details))
    // Otherwise the checkpoint line follows it, after a blank line.
    ensures r.introspected ==> (r.text.Success? <==> ModelsLine("\n\n", objectInfo).Success?)
    ensures r.introspected && r.text.Success? ==>
              r.text.value == base + ":\n" + Bullets(details) + ModelsLine("\n\n", objectInfo).value
  {
    var listing := base + ":\n" + Bullets(details);
    if exists k :: 0 <= k < |details| && RefusedCheckpoint(details[k]) then
      match ModelsLine("\n\n", objectInfo)
      case Success(line) =>
        assert forall k :: 0 <= k < |details| ==> PyText.HasSubstring(listing + line, details[k]) by {
          forall k | 0 <= k < |details|
            ensures PyText.HasSubstring(listing + line, details[k])
          {
            ListingMentionsEachDetail(base, details, line, k);
          }
        }
        Rejection(Success(listing + line), true)
      case Failure(e) => Rejection(Failure(e), true)
    else
      assert forall k :: 0 <= k < |details| ==> PyText.HasSubstring(listing, details[k]) by {
        forall k | 0 <= k < |details|
          ensures PyText.HasSubstring(listing, details[k])
        {
          ListingMentionsEachDetail(base, details, "", k);
          assert listing + "" == listing;
        }
      }
      Rejection(Success(listing), false)
  }

  /** The error message built from a parsed 400 body. */
  function RejectionMessage(body: ErrorBody, raw: string, objectInfo: Option<Json>): (r: Rejection)
    // The model list is consulted for a failed-validation type, or when a detail names a
    // refused checkpoint choice, and never otherwise.
    ensures r.introspected <==>
              body.kind == Some(FailedValidation)
              || (|Details(body)| > 0 && exists k :: 0 <= k < |Details(body)| && RefusedCheckpoint(Details(body)[k]))
    ensures r.text.Failure? ==> r.introspected
    // A failed-validation type always ends in the model-availability hint.
    ensures body.kind == Some(FailedValidation) && r.text.Success? ==>
              (body.message.GetOr(DefaultMessage) + ModelHint) <= r.text.value
    // ...followed on the next line by the checkpoint line, and by nothing else.
    ensures body.kind == Some(FailedValidation) ==> (r.text.Success? <==> ModelsLine("\n", objectInfo).Success?)
    ensures body.kind == Some(FailedValidation) && r.text.Success? ==>
              r.text.value == body.message.GetOr(DefaultMessage) + ModelHint + ModelsLine("\n", objectInfo).value
    // Otherwise, with details: the base message, a colon, and one bullet per detail.
    ensures body.kind != Some(FailedValidation) && |Details(body)| > 0 && r.text.Success? ==>
              (BaseMessage(body.error) + ":\n" + Bullets(Details(body))) <= r.text.value
    ensures body.kind != Some(FailedValidation) && r.text.Success? ==>
              forall k :: 0 <= k < |Details(body)| ==> PyText.HasSubstring(r.text.value, Details(body)[k])
    // The listing ends there unless a detail names a refused checkpoint choice; then the
    // checkpoint line follows after a blank line.
    ensures body.kind != Some(FailedValidation) && |Details(body)| > 0 && !r.introspected ==>
              r.text == Success(BaseMessage(body.error) + ":\n" + Bullets(Details(body)))
    ensures body.kind != Some(FailedValidation) && r.introspected ==>
              (r.text.Success? <==> ModelsLine("\n\n", objectInfo).Success?)
    ensures body.kind != Some(FailedValidation) && r.introspected && r.text.Success? ==>
              r.text.value == BaseMessage(body.error) + ":\n" + Bullets(Details(body))
                              + ModelsLine("\n\n", objectInfo).value
    // Without details: the base message and the raw response.
    ensures body.kind != Some(FailedValidation) && |Details(body)| == 0 ==>
              r.text == Success(BaseMessage(body.error) + ". Raw response: " + raw)
  {
    if body.kind == Some(FailedValidation) then
      var head := body.message.GetOr(DefaultMessage) + ModelHint;
      match ModelsLine("\n", objectInfo)
      case Success(line) => Rejection(Success(head + line), true)
      case Failure(e) => Rejection(Failure(e), true)
    else if |Details(body)| > 0 then ListingRejection(BaseMessage(body.error), Details(body), objectInfo)
    else Rejection(Success(BaseMessage(body.error) + ". Raw response: " + raw), false)
  }

  /** A single node whose checkpoint choice is refused (such as node "5" reporting
      `value_not_in_list: ckpt_name not in list`), with one checkpoint installed: the
      message lists that node's error and names the installed checkpoint. */
  lemma RefusedCheckpointScenario(id: string, kind: string, message: string, installed: string,
                                  rest: seq<(string, Json)>)
    requires PyText.HasSubstring(message, "not in list") && PyText.HasSubstring(message, "ckpt_name")
    ensures var body := ErrorBody(None, Some([(id, NodeDict([(kind, message)]))]), None, None);
            var r := RejectionMessage(body, "", Some(ObjectInfoOffering([JStr(installed)], rest)));
            r.introspected
            && r.text == Success(DefaultMessage + ":\n" + ("\U{2022} " + ("Node " + id + " (" + kind + "): " + message))
                                 + ("\n\n" + "Available checkpoint models: " + installed))
  {
    var nodes := [(id, NodeDict([(kind, message)]))];
    var body := ErrorBody(None, Some(nodes), None, None);
    var detail := "Node " + id + " (" + kind + "): " + message;
    assert NodeLines(id, nodes[0].1) == [detail];
    assert nodes[1..] == [];
    assert NodeDetails(nodes[1..]) == [];
    assert NodeDetails(nodes) == NodeLines(id, nodes[0].1) + NodeDetails(nodes[1..]);
    assert Details(body) == [detail];
    SubstringWiden("Node " + id + " (" + kind + "): ", message, "", "not in list");
    SubstringWiden("Node " + id + " (" + kind + "): ", message, "", "ckpt_name");
    assert detail + "" == detail;
    assert RefusedCheckpoint(Details(body)[0]);
    CheckpointsRoundTrip([JStr(installed)], rest);
    var names := [JStr(installed)];
    assert seq(|names|, k requires 0 <= k < |names| => names[k].s) == [installed];
    assert JoinNames(names) == Success(installed);
    assert Bullets([detail]) == "\U{2022} " + detail by {
      assert seq(1, k requires 0 <= k < 1 => "\U{2022} " + [detail][k]) == ["\U{2022} " + detail];
    }
    var info := Some(ObjectInfoOffering([JStr(installed)], rest));
    var line := "\n\n" + "Available checkpoint models: " + installed;
    assert AvailableCheckpoints(info) == Some(names);
    assert |names| > 0;
    assert ModelsLine("\n\n", info) == Success(line);
    assert RejectionMessage(body, "", info) == ListingRejection(DefaultMessage, [detail], info);
    assert ListingRejection(DefaultMessage, [detail], info)
        == Rejection(Success(DefaultMessage + ":\n" + Bullets([detail]) + line), true);
  }

  /** The engine's answer to `POST /prompt`: a 400 with its body (`None` when it is not
      JSON), a `requests` failure (other error statuses, network errors, a non-JSON
      success body), or a success body with its `prompt_id` and its `str()` rendering. */
  datatype Reply =
    | BadRequest(body: Option<ErrorBody>, raw: string)
    | RequestFailed(reason: string)
    | Accepted(promptId: Option<string>, shown: string)

  /** Submission as the handler sees it: the prompt id, or the text of the error the
      handler returns (ValueErrors are returned verbatim). */
  function Queue(reply: Reply, objectInfo: Option<Json>): (r: Result<string, string>)
    ensures r.Success? <==> reply.Accepted? && reply.promptId.Some? && reply.promptId.value != ""
    ensures r.Success? ==> r.value == reply.promptId.value
    ensures reply.RequestFailed? ==> r == Failure("Error queuing workflow: " + reply.reason)
    ensures reply.BadRequest? && reply.body.None? ==>
              r == Failure("ComfyUI validation failed (could not parse error response): " + reply.raw)
    ensures reply.BadRequest? && reply.body.Some? ==>
              var rejection := RejectionMessage(reply.body.value, reply.raw, objectInfo).text;
              r == Failure(if rejection.Success? then rejection.value
                           else "Unexpected error queuing workflow: " + rejection.error)
    // An accepted reply without a usable prompt id is reported with the reply itself.
    ensures reply.Accepted? && !(reply.promptId.Some? && reply.promptId.value != "") ==>
              r == Failure("Missing 'prompt_id' in queue response: " + reply.shown)
  {
    match reply
    case BadRequest(body, raw) =>
      if body.None? then Failure("ComfyUI validation failed (could not parse error response): " + raw)
      else
        (match RejectionMessage(body.value, raw, objectInfo).text
         case Success(m) => Failure(m)
         case Failure(e) => Failure("Unexpected error queuing workflow: " + e))
    case RequestFailed(reason) => Failure("Error queuing workflow: " + reason)
    case Accepted(promptId, shown) =>
      if promptId.Some? && promptId.value != "" then Success(promptId.value)
      else Failure("Missing 'prompt_id' in queue response: " + shown)
  }
}

=== FILE: upload.dfy ===
/** Upload of the job's input images (`upload_images`): every image is attempted,
    failures are collected in order, and the batch fails if any image failed. */
module Upload {
  import opened Wrappers
  import opened Json
  import PyText

  /** A validated image entry: the values under its `name` and `image` keys. */
  datatype Entry = Entry(name: Json, data: Json)

  /** `base64.b64decode` of the payload: decoded, a `binascii.Error`, or another
      `ValueError` (a non-ASCII payload). */
  datatype Decode = Decoded | Base64Error(reason: string) | OtherValueError(reason: string)

  /** The multipart POST to `/upload/image`: accepted, timed out, another
      `requests.RequestException` (including a non-2xx status), or any other exception. */
  datatype Post = Posted | PostTimeout | PostRequestError(reason: string) | PostRaised(reason: string)

  /** The dictionary `upload_images` returns: `status`, `message`, `details`. */
  datatype Report = Report(ok: bool, message: string, details: seq<string>)

  /** The text after the first comma of a Data URI. */
  function AfterFirstComma(s: string): (r: string)
    requires ',' in s
    ensures exists k :: 0 <= k < |s| && s[k] == ',' && ',' !in s[..k] && r == s[k + 1..]
  {
    if s[0] == ',' then
      assert s[..0] == [];
      s[1..]
    else
      var r := AfterFirstComma(s[1..]);
      var k :| 0 <= k < |s[1..]| && s[1..][k] == ',' && ',' !in s[1..][..k] && r == s[1..][k + 1..];
      assert s[..k + 1] == [s[0]] + s[1..][..k];
      assert s[k + 1 + 1..] == s[1..][k + 1..];
      r
  }

  /** Strips a Data-URI prefix: everything up to and including the first comma. */
  function StripDataUri(uri: string): (payload: string)
    ensures ',' !in uri ==> payload == uri
    ensures ',' in uri ==>
              exists k :: 0 <= k < |uri| && uri[k] == ',' && ',' !in uri[..k] && payload == uri[k + 1..]
    ensures |payload| <= |uri|
  {
    if ',' in uri then AfterFirstComma(uri) else uri
  }

  /** Stripping undoes the prefixing of a comma-free header such as `data:image/png;base64`. */
  lemma {:induction false} StripDataUriRoundTrip(header: string, payload: string)
    requires ',' !in header
    ensures StripDataUri(header + "," + payload) == payload
    decreases |header|
  {
    var uri := header + "," + payload;
    assert uri[|header|] == ',';
    if |header| == 0 {
      assert uri[1..] == payload;
    } else {
      assert uri[1..] == header[1..] + "," + payload;
      assert uri[0] != ',' by { assert uri[0] == header[0]; }
      StripDataUriRoundTrip(header[1..], payload);
    }
  }

  /** The message Python raises when a non-string `image` value reaches the upload code:
      the comma test or the decoder rejects it. */
  function NonStringDataError(data: Json): (m: string)
    requires !data.JStr?
    // The message names the offending type.
    ensures PyText.HasSubstring(m, TypeName(data))
  {
    var kind := TypeName(data);
    var noSplit := "' object has no attribute 'split'";
    var notBytes := "argument should be a bytes-like object or ASCII string, not '";
    PyText.SubstringOfConcat("'", kind, noSplit);
    PyText.SubstringOfConcat(notBytes, kind, "'");
    PyText.SubstringOfConcat("argument of type '", kind, "' is not iterable");
    match data
    case JArr(items) => if JStr(",") in items then "'" + kind + noSplit else notBytes + kind + "'"
    case JObj(fields) => if PyIn(",", data) == Some(true) then "'" + kind + noSplit else notBytes + kind + "'"
    case _ => "argument of type '" + kind + "' is not iterable"
  }

  /** A message line that names `name` between a fixed prefix and suffix. */
  function Mention(prefix: string, name: string, suffix: string): (line: string)
    ensures PyText.HasSubstring(line, name)
  {
    PyText.SubstringOfConcat(prefix, name, suffix);
    prefix + name + suffix
  }

  /** One iteration of the upload loop: the success line or the error line for one image. */
  function UploadOne(e: Entry, decode: string -> Decode, post: Post): (r: Result<string, string>)
    // An image is uploaded exactly when its stripped payload decodes and the POST is accepted.
    ensures r.Success? <==> e.data.JStr? && decode(StripDataUri(e.data.s)).Decoded? && post.Posted?
    // Every line names the image.
    ensures r.Success? ==> PyText.HasSubstring(r.value, Show(e.name))
    ensures r.Failure? ==> PyText.HasSubstring(r.error, Show(e.name))
  {
    var name := Show(e.name);
    if !e.data.JStr? then Failure(Mention("Unexpected error uploading ", name, ": " + NonStringDataError(e.data)))
    else
      match decode(StripDataUri(e.data.s))
      case Base64Error(m) => Failure(Mention("Error decoding base64 for ", name, ": " + m))
      case OtherValueError(m) => Failure(Mention("Unexpected error uploading ", name, ": " + m))
      case Decoded =>
        match post
        case Posted => Success(Mention("Successfully uploaded ", name, ""))
        case PostTimeout => Failure(Mention("Timeout uploading ", name, ""))
        case PostRequestError(m) => Failure(Mention("Error uploading ", name, ": " + m))
        case PostRaised(m) => Failure(Mention("Unexpected error uploading ", name, ": " + m))
  }

  /** The per-image outcomes, image `i` using the `i`-th POST outcome. */
  function Outcomes(images: seq<Entry>, decode: string -> Decode, post: nat -> Post): (rs: seq<Result<string, string>>)
    ensures |rs| == |images|
    ensures forall i :: 0 <= i < |images| ==> rs[i] == UploadOne(images[i], decode, post(i))
  {
    seq(|images|, i requires 0 <= i < |images| => UploadOne(images[i], decode, post(i)))
  }

  /** One image's outcome does not depend on the images before it: the outcomes of a
      batch are those of its first part followed by those of the rest, whose POSTs are
      the batch's later ones. */
  lemma OutcomesAppend(a: seq<Entry>, b: seq<Entry>, decode: string -> Decode, post: nat -> Post)
    ensures Outcomes(a + b, decode, post) == Outcomes(a, decode, post) + Outcomes(b, decode, (k: nat) => post(k + |a|))
  {
    var whole := Outcomes(a + b, decode, post);
    var split := Outcomes(a, decode, post) + Outcomes(b, decode, (k: nat) => post(k + |a|));
    forall i | 0 <= i < |whole|
      ensures whole[i] == split[i]
    {
      if i >= |a| {
        assert (a + b)[i] == b[i - |a|];
      }
    }
  }

  /** The error lines of `rs`, in order. */
  function Failures(rs: seq<Result<string, string>>): seq<string> {
    if |rs| == 0 then []
    else (if rs[0].Failure? then [rs[0].error] else []) + Failures(rs[1..])
  }

  /** The success lines of `rs`, in order. */
  function Successes(rs: seq<Result<string, string>>): seq<string> {
    if |rs| == 0 then []
    else (if rs[0].Success? then [rs[0].value] else []) + Successes(rs[1..])
  }

  /** Every failed image is reported, wherever it stands in the batch. */
  lemma {:induction false} FailureReported(rs: seq<Result<string, string>>, i: nat)
    requires i < |rs| && rs[i].Failure?
    ensures rs[i].error in Failures(rs)
  {
    if i > 0 {
      assert rs[1..][i - 1] == rs[i];
      FailureReported(rs[1..], i - 1);
    }
  }

  lemma {:induction false} NoFailuresMeansAllSucceeded(rs: seq<Result<string, string>>)
    ensures |Failures(rs)| == 0 <==> forall i :: 0 <= i < |rs| ==> rs[i].Success?
    ensures |Failures(rs)| == 0 ==> Successes(rs) == seq(|rs|, i requires 0 <= i < |rs| => rs[i].value)
  {
    if |rs| > 0 {
      NoFailuresMeansAllSucceeded(rs[1..]);
      assert forall i :: 1 <= i < |rs| ==> rs[i] == rs[1..][i - 1];
    }
  }

  lemma {:induction false} FailuresAppend(a: seq<Result<string, string>>, b: seq<Result<string, string>>)
    ensures Failures(a + b) == Failures(a) + Failures(b)
    decreases |a|
  {
    if |a| == 0 {
      assert a + b == b;
    } else {
      var head := if a[0].Failure? then [a[0].error] else [];
      assert (a + b)[0] == a[0];
      assert (a + b)[1..] == a[1..] + b;
      assert Failures(a + b) == head + Failures(a[1..] + b);
      assert Failures(a) == head + Failures(a[1..]);
      FailuresAppend(a[1..], b);
    }
  }

  lemma {:induction false} SuccessesAppend(a: seq<Result<string, string>>, b: seq<Result<string, string>>)
    ensures Successes(a + b) == Successes(a) + Successes(b)
    decreases |a|
  {
    if |a| == 0 {
      assert a + b == b;
    } else {
      var head := if a[0].Success? then [a[0].value] else [];
      assert (a + b)[0] == a[0];
      assert (a + b)[1..] == a[1..] + b;
      assert Successes(a + b) == head + Successes(a[1..] + b);
      assert Successes(a) == head + Successes(a[1..]);
      SuccessesAppend(a[1..], b);
    }
  }

  lemma FilterSingle(one: Result<string, string>)
    ensures Failures([one]) == (if one.Failure? then [one.error] else [])
    ensures Successes([one]) == (if one.Success? then [one.value] else [])
  {
    assert [one][1..] == [];
  }

  /** `upload_images(images)`, where `None` stands for an absent list. */
  function UploadImages(images: Option<seq<Entry>>, decode: string -> Decode, post: nat -> Post): (r: Report)
    // Nothing to upload is a success with no details.
    ensures images.None? || images == Some([]) ==> r == Report(true, "No images to upload", [])
    ensures images.Some? && |images.value| > 0 ==>
              var rs := Outcomes(images.value, decode, post);
              // The batch succeeds exactly when every image did ...
              && (r.ok <==> forall i :: 0 <= i < |rs| ==> rs[i].Success?)
              // ... and then reports one success line per image, in order;
              && (r.ok ==> r.message == "All images uploaded successfully"
                           && r.details == seq(|rs|, i requires 0 <= i < |rs| => rs[i].value))
              // otherwise it reports only the failures, all of them, in order.
              && (!r.ok ==> r.message == "Some images failed to upload"
                            && r.details == Failures(rs) && |r.details| > 0)
  {
    if images.None? || |images.value| == 0 then Report(true, "No images to upload", [])
    else
      var rs := Outcomes(images.value, decode, post);
      NoFailuresMeansAllSucceeded(rs);
      var errors := Failures(rs);
      if |errors| > 0 then Report(false, "Some images failed to upload", errors)
      else Report(true, "All images uploaded successfully", Successes(rs))
  }

  /** One more outcome extends the filtered lists by that outcome alone. */
  lemma FilterStep(rs: seq<Result<string, string>>, i: nat)
    requires i < |rs|
    ensures Failures(rs[..i + 1]) == Failures(rs[..i]) + (if rs[i].Failure? then [rs[i].error] else [])
    ensures Successes(rs[..i + 1]) == Successes(rs[..i]) + (if rs[i].Success? then [rs[i].value] else [])
  {
    assert rs[..i + 1] == rs[..i] + [rs[i]];
    FailuresAppend(rs[..i], [rs[i]]);
    SuccessesAppend(rs[..i], [rs[i]]);
    FilterSingle(rs[i]);
  }

  /** The upload loop as the worker writes it, keeping `responses` and `upload_errors`. */
  method UploadAll(images: Option<seq<Entry>>, decode: string -> Decode, post: nat -> Post) returns (r: Report)
    ensures r == UploadImages(images, decode, post)
  {
    if images.None? || |images.value| == 0 {
      return Report(true, "No images to upload", []);
    }
    var list := images.value;
    ghost var rs := Outcomes(list, decode, post);
    var responses: seq<string> := [];
    var uploadErrors: seq<string> := [];
    for i := 0 to |list|
      invariant responses == Successes(rs[..i])
      invariant uploadErrors == Failures(rs[..i])
    {
      var one := UploadOne(list[i], decode, post(i));
      FilterStep(rs, i);
      if one.Success? {
        responses := responses + [one.value];
      } else {
        uploadErrors := uploadErrors + [one.error];
      }
    }
    assert rs[..|list|] == rs;
    if |uploadErrors| > 0 {
      return Report(false, "Some images failed to upload", uploadErrors);
    }
    return Report(true, "All images uploaded successfully", responses);
  }
}

=== FILE: validation.dfy ===
/** Input validation and normalisation of the current worker (`validate_input`):
    the job input must carry a workflow; a legacy single `image` is folded into the
    `images` list, and every entry of that list must be an object naming an image. */
module Validation {
  import opened Wrappers
  import opened Json
  import Dict

  /** The ways validation rejects a job input. */
  datatype ValidationError =
    | NoInput                    // the job input is `None`
    | BadJsonText                // a text input that does not parse as JSON
    | NotAMapping(kind: string)  // the input is no object: `.get` raises AttributeError
    | MissingWorkflow
    | ImagesNotList
    | MalformedImage

  /** The message the worker reports for each rejection. */
  function ErrorText(e: ValidationError): string {
    match e
    case NoInput => "Please provide input"
    case BadJsonText => "Invalid JSON format in input"
    case NotAMapping(kind) => "'" + kind + "' object has no attribute 'get'"
    case MissingWorkflow => "Missing 'workflow' parameter"
    case ImagesNotList => "'images' must be a list"
    case MalformedImage => "Each image must contain 'name' and 'image' keys"
  }

  /** A validated job: the opaque workflow and the normalised image list. */
  datatype Job = Job(workflow: Json, images: Option<seq<Json>>)

  /** An image entry the worker can upload: an object with `name` and `image` keys. */
  predicate WellShaped(entry: Json) {
    entry.JObj? && Dict.HasKey(entry.fields, "name") && Dict.HasKey(entry.fields, "image")
  }

  predicate AllWellShaped(entries: seq<Json>) {
    forall k :: 0 <= k < |entries| ==> WellShaped(entries[k])
  }

  /** The value of `images` after folding in the legacy `image` field. */
  function Normalise(image: Json, images: Json): (r: Option<Json>)
    ensures r.None? <==> !Truthy(image) && !Truthy(images)
    ensures Truthy(images) ==> r == Some(images)
    ensures Truthy(image) && !Truthy(images) ==> r == Some(JArr([image]))
  {
    if Truthy(image) && !Truthy(images) then Some(JArr([image]))
    else if !Truthy(image) && !Truthy(images) then None
    else Some(images)
  }

  /** The first entry that is not well shaped, if any. */
  function FirstMalformed(entries: seq<Json>): (r: Option<nat>)
    ensures r.None? <==> AllWellShaped(entries)
    ensures r.Some? ==> r.value < |entries| && !WellShaped(entries[r.value])
  {
    if |entries| == 0 then None
    else if !WellShaped(entries[0]) then Some(0)
    else
      match FirstMalformed(entries[1..])
      case None => None
      case Some(k) => Some(k + 1)
  }

  /** The checks applied to the normalised `images` value. */
  function CheckImages(images: Option<Json>): (r: Result<Option<seq<Json>>, ValidationError>)
    ensures images.None? ==> r == Success(None)
    ensures r == Failure(ImagesNotList) <==> images.Some? && !images.value.JArr?
    ensures r == Failure(MalformedImage) <==>
              images.Some? && images.value.JArr? && !AllWellShaped(images.value.items)
    ensures images.Some? && r.Success? ==> r.value == Some(images.value.items)
  {
    match images
    case None => Success(None)
    case Some(v) =>
      if !v.JArr? then Failure(ImagesNotList)
      else if FirstMalformed(v.items).Some? then Failure(MalformedImage)
      else Success(Some(v.items))
  }

  /** Validation of an input that is already a JSON object. */
  function ValidateObject(fields: seq<(string, Json)>): (r: Result<Job, ValidationError>)
    // Only a missing or null workflow is rejected, and that check comes first.
    ensures Get(fields, "workflow").JNull? <==> r == Failure(MissingWorkflow)
    ensures r.Failure? ==> r.error in {MissingWorkflow, ImagesNotList, MalformedImage}
    // A truthy `images` that is not a list is rejected.
    ensures r == Failure(ImagesNotList) <==>
              !Get(fields, "workflow").JNull? && Truthy(Get(fields, "images")) && !Get(fields, "images").JArr?
    // Success: the workflow is passed through untouched and the images are normalised.
    ensures r.Success? <==>
              && !Get(fields, "workflow").JNull?
              && (Truthy(Get(fields, "images")) ==>
                    Get(fields, "images").JArr? && AllWellShaped(Get(fields, "images").items))
              && (Truthy(Get(fields, "image")) && !Truthy(Get(fields, "images")) ==>
                    WellShaped(Get(fields, "image")))
    ensures r.Success? ==> r.value.workflow == Get(fields, "workflow")
    ensures r.Success? ==>
              (r.value.images.None? <==> !Truthy(Get(fields, "image")) && !Truthy(Get(fields, "images")))
    ensures r.Success? && Truthy(Get(fields, "images")) ==>
              r.value.images == Some(Get(fields, "images").items)
    ensures r.Success? && Truthy(Get(fields, "image")) && !Truthy(Get(fields, "images")) ==>
              r.value.images == Some([Get(fields, "image")])
    // A normalised list is never empty and holds only well-shaped entries.
    ensures r.Success? && r.value.images.Some? ==>
              |r.value.images.value| > 0 && AllWellShaped(r.value.images.value)
  {
    var workflow := Get(fields, "workflow");
    if workflow.JNull? then Failure(MissingWorkflow)
    else
      match CheckImages(Normalise(Get(fields, "image"), Get(fields, "images")))
      case Failure(e) => Failure(e)
      case Success(images) => Success(Job(workflow, images))
  }

  /** `validate_input`: a text input is first parsed by the `parse` oracle (`json.loads`). */
  function Validate(input: Json, parse: string -> Option<Json>): (r: Result<Job, ValidationError>)
    ensures input.JNull? ==> r == Failure(NoInput)
    ensures input.JStr? && parse(input.s).None? ==> r == Failure(BadJsonText)
    ensures input.JObj? ==> r == ValidateObject(input.fields)
    ensures input.JStr? && parse(input.s).Some? && parse(input.s).value.JObj? ==>
              r == ValidateObject(parse(input.s).value.fields)
    ensures r.Failure? && r.error.NotAMapping? ==>
              !input.JObj? && !(input.JStr? && parse(input.s).Some? && parse(input.s).value.JObj?)
    // Any other value, given or parsed, has no `.get`: validation itself raises.
    ensures !input.JNull? && !input.JStr? && !input.JObj? ==> r == Failure(NotAMapping(TypeName(input)))
    ensures input.JStr? && parse(input.s).Some? && !parse(input.s).value.JObj? ==>
              r == Failure(NotAMapping(TypeName(parse(input.s).value)))
  {
    if input.JNull? then Failure(NoInput)
    else if input.JStr? then
      match parse(input.s)
      case None => Failure(BadJsonText)
      case Some(v) => if v.JObj? then ValidateObject(v.fields) else Failure(NotAMapping(TypeName(v)))
    else if input.JObj? then ValidateObject(input.fields)
    else Failure(NotAMapping(TypeName(input)))
  }

  /** The validated job as the dictionary `{"workflow": ..., "images": ...}` the worker builds. */
  function Encode(job: Job): Json {
    JObj([("workflow", job.workflow),
          ("images", if job.images.Some? then JArr(job.images.value) else JNull)])
  }

  /** Re-validating the worker's own output gives back the same job. */
  lemma ValidateIdempotent(input: Json, parse: string -> Option<Json>)
    requires Validate(input, parse).Success?
    ensures Validate(Encode(Validate(input, parse).value), parse) == Validate(input, parse)
  {
    var job := Validate(input, parse).value;
    var fields := Encode(job).fields;
    assert fields[0] == ("workflow", job.workflow);
    assert fields[1].0 == "images";
    assert Get(fields, "workflow") == job.workflow;
    assert Get(fields, "images") == fields[1].1;
    assert !Dict.HasKey(fields, "image");
  }

  /** The workflow is opaque: even an empty workflow object is accepted. */
  lemma EmptyWorkflowAccepted(parse: string -> Option<Json>)
    ensures Validate(JObj([("workflow", JObj([]))]), parse) == Success(Job(JObj([]), None))
  {
    var fields := [("workflow", JObj([]))];
    assert Get(fields, "workflow") == JObj([]);
    assert !Dict.HasKey(fields, "image") && !Dict.HasKey(fields, "images");
  }
}

=== FILE: wrappers.dfy ===
/** Option and Result types shared by every module. */
module Wrappers {

  /** A value that may be absent: Python's `None` versus a present value. */
  datatype Option<+T> = None | Some(value: T) {

    /** The carried value, or `default` when absent (Python's `d.get(k, default)`). */
    function GetOr(default: T): T {
      match this
      case Some(v) => v
      case None => default
    }
  }

  /** The outcome of a step that can fail with an error of type `E`. */
  datatype Result<+T, +E> = Success(value: T) | Failure(error: E)
}
